=== FILE: README.md ===
# Kataster gameplay core in Dafny

Kataster is an asteroids game written in Rust on the Bevy engine. This
project models its gameplay rules and its game-flow state machines as pure
step functions over immutable datatypes, and proves properties of them.
Timers, entity stores, random draws and state resources are explicit inputs
and outputs.

The model covers several historical revisions of the game, and each
revision uses its own state enums. The model keeps each revision's enums in the
module that models it:

- `States` covers `src/state.rs`, and with it `src/menu.rs`, `src/ui.rs` and
  `src/player_ship.rs`. The outer state is `StartMenu | Game` and the game
  phase is `Invalid | Game | Pause | GameOver`.
- `GameFlow` covers `src/menu/*.rs` and `src/hud.rs`. The outer state is
  `Setup | Menu | Credits | Game` and the game phase is
  `Setup | Running | Paused | Over`.
- `Player` covers `src/player.rs`, which has a single game state:
  `StartMenu | Game | Pause | GameOver`.

Modules:

- `Timers`: the engine timer as (elapsed, duration) in seconds. A one-shot
  timer is clamped at its duration and a repeating timer wraps. A timer is
  finished once elapsed reaches the duration.
- `Arena`: the arena constants, the spawn timer, the oldest revision's
  asteroid cadence and the edge-wrap rule.
- `Asteroids`: the score, split and radius tables, the cadence with its
  20-asteroid cap, spawning, and destruction into four diagonal fragments.
- `Contact`: classifying a collision pair and aborting on more than one
  contact per call.
- `Lasers`: spawning a laser with its inherited velocity, and its 2 s
  time-to-live.
- `PlayerShip`: spawning the ship, its timers, its input, and the
  damage/invincibility state machine.
- `States`: the state-scoped teardown and the engine's refusing
  `State::set`.
- `MenuFlow` and `Ui`: the two input state machines of the two-level
  revision.
- `Blink`: blinking menu texts.
- `LifeIcons` and `Counting`: the life icons shared by the UI and the HUD.
- `MenuCursor`: cyclic selection and the exclusive highlight.
- `MenuSystems`: the main-menu and in-game input systems.
- `Hud`: the life icons of the heads-up display.
- `Player`: the earliest revision's spawn, cannon and keyboard input.

Panics in the source become `Failure` results. This covers:

- `expect` and `unwrap` on a missing entity;
- `u32` underflow of the ship's life, which panics in a debug build and wraps in a release build; the model treats it as a failure and proves it unreachable from valid ships (`PlayerShip.ShipDamage`);
- `rem_euclid` by zero entries;
- an explicit `panic!` on too many contacts;
- a refused `State::set(..).unwrap()`.

The engine's `State::set` of that revision refuses a target equal to the
current state, and refuses any request once a transition is already queued.
`NextState::set` of the later revisions simply overwrites, so the last
request of a frame wins.

At the asteroid cap the spawn timer re-arms without shortening its interval
(`src/asteroid.rs:114-121`, `Asteroids.CapKeepsCadence`).

In the `src/menu/mod.rs` revision, the main menu's "Credits" entry quits the
application (`MenuSystems.CreditsEntryQuits`). The latest revision
(`src/menu/interaction.rs`) opens the credits screen instead
(`MenuSystems.MainMenuFollowsItsEntries`). That revision may have had no
credits screen yet, so this is recorded here rather than as a finding.

## Model

| member | source | states |
|---|---|---|
| Timers.Tick | src/laser.rs:84-85 | A one-shot tick keeps the timer within its duration. The timer is finished exactly when elapsed plus delta reaches the duration; otherwise elapsed grows by exactly delta. |
| Timers.TickAdds | src/player_ship.rs:130-135 | Two ticks in a row equal one tick by their sum. |
| Timers.Reset | src/player_ship.rs:208 | A reset timer has elapsed 0 and the same duration. It is unfinished unless its duration is 0. |
| Timers.TickRepeating | src/ui.rs:180-185 | A repeating tick stays strictly inside the period. It reports completion exactly when elapsed plus delta reaches the period. |
| Blink.DrawBlink | src/ui.rs:176-186 | A blinking text flips its visibility exactly when its repeating timer completes during the tick. |
| Blink.MenuBlink | src/menu/handler.rs:106-124 | A disabled blinker neither ticks nor changes visibility. An enabled one flips exactly when its timer completes. |
| Blink.NoFlipBeforePeriod | src/menu.rs:193-209 | Frames that sum to less than the remaining period never flip the text. |
| Arena.Setup | src/arena.rs:32-34 | The arena starts with an unfinished one-shot spawn timer of 5 s. |
| Arena.Shrink | src/arena.rs:77-78 | The next interval is 80 % of the current one, floored at 0.1 s. It stays within [0.1, 5] and never grows. |
| Arena.Cadence | src/arena.rs:72-78 | A finished timer is always reset. Spawning happens exactly when the timer finishes with fewer than 20 asteroids alive, and only then does the interval shrink. |
| Arena.RandomBigAsteroid | src/arena.rs:79-94 | Side 0 places the asteroid on the top edge at the drawn x; any other side places it on the left edge at the drawn y. It moves and spins as drawn: vx in [-W/4, W/4), vy in [-H/4, H/4) and angvel in [-10, 10). |
| Arena.SpawnRandomAsteroid | src/arena.rs:64-106 | The oldest cadence system resets a finished timer and otherwise advances it by exactly delta. It spawns exactly when the timer finishes below the cap, and the interval shrinks only then. The asteroid is the one the draws place: on the top or left edge, with velocity and spin in the drawn ranges. |
| Arena.CadenceReachesFloor | src/arena.rs:77-78 | After 18 or more spawns from 5 s, the interval is exactly the 0.1 s floor. |
| Arena.WrapAxis | src/arena.rs:120-133 | A coordinate is moved only when it is past an edge and still moving outward. It then lands on the opposite edge and is no longer outbound. |
| Arena.WrapBody | src/arena.rs:118-139 | Velocity is never written. Position is written exactly when some axis is outbound, and each axis wraps independently. |
| Arena.WrapIdempotent | src/arena.rs:120-133 | Wrapping a wrapped body changes nothing and writes nothing. |
| Arena.InsideIsUntouched | src/arena.rs:120-133 | A body inside the arena is never moved, whatever its velocity. |
| Arena.PositionSystem | src/arena.rs:108-141 | Every body is wrapped and keeps its velocity. The written positions are exactly those of the bodies that moved. |
| Asteroids.Score | src/asteroid.rs:28-34 | Every asteroid is worth points. |
| Asteroids.ScoreTable | src/asteroid.rs:28-34 | Big scores 40, Medium 20, Small 10. |
| Asteroids.Split | src/asteroid.rs:38-44 | Exactly the Small size does not split. Every other size splits into the next smaller size, with a positive spread radius. |
| Asteroids.Radius | src/asteroid.rs:75-79 | Every collider radius is positive. |
| Asteroids.TablesFollowSize | src/asteroid.rs:28-44 | A larger size scores more, has a larger radius and splits. |
| Asteroids.Generations | src/asteroid.rs:38-44 | Repeated splitting ends after at most two generations, and a Small asteroid has none. |
| Asteroids.ClearingABigAsteroid | src/asteroid.rs:159-190 | Destroying a Big asteroid and all its fragments scores 280. |
| Asteroids.ArenaAsteroids | src/asteroid.rs:107-148 | A finished timer is reset, and an unfinished one advances by exactly delta. A Big spawn event is sent exactly when the timer finishes below the cap, and the interval then shrinks. The event carries the position, velocity and spin the draws place: on an edge, within range. |
| Asteroids.RevisionsAgree | src/asteroid.rs:113-145 | With the oldest arena dimensions, the event-based cadence re-arms the timer as the oldest system does and requests exactly the asteroid the oldest system spawns. |
| Asteroids.CapKeepsCadence | src/asteroid.rs:114-121 | At the cap, a finished timer re-arms, sends no event and keeps its interval. |
| Asteroids.SpawnAsteroidEvents | src/asteroid.rs:69-105 | Each request becomes one asteroid of that size, position and velocity, with that size's collider radius. |
| Asteroids.Fragment | src/asteroid.rs:172-189 | Fragment i sits at the parent plus (±1.5 r, ±1.5 r). The x sign follows i % 2 and the y sign follows (i / 2) % 2. It keeps the parent's angvel and its velocity is within the scaled range. |
| Asteroids.Fragments | src/asteroid.rs:170-191 | A Small asteroid yields no fragment. Any other yields exactly four of the next size at pairwise distinct diagonal offsets, each with the parent's angvel. |
| Asteroids.FragmentsCoverAllDiagonals | src/asteroid.rs:172-177 | Every one of the four sign combinations receives a fragment. |
| Asteroids.LaserExplosions | src/asteroid.rs:165-169 | There is one LaserOnAsteroid explosion per contact, in order, at that contact's laser. |
| Asteroids.Despawns | src/asteroid.rs:192-193 | Each contact despawns its laser and then its asteroid, in contact order. |
| Asteroids.AllFragments | src/asteroid.rs:170-190 | The fragments of all contacts number four per non-Small asteroid. |
| Asteroids.FragmentsOfContact | src/asteroid.rs:158-190 | The fragments of contact i sit right after those of the earlier contacts, and are exactly the fragments of its own asteroid, drawn with its own draws. |
| Asteroids.FirstMissing | src/asteroid.rs:159-162 | No lookup fails exactly when every laser and asteroid exists. Otherwise the error names the first failing contact, and within it the laser before the asteroid. |
| Asteroids.Damage | src/asteroid.rs:158-195 | With every lookup succeeding, the batch keeps the timer, adds each asteroid's points, and yields the contact-ordered explosions, fragments and despawns. |
| Asteroids.AsteroidDamage | src/asteroid.rs:150-196 | The call aborts exactly when some laser or asteroid is missing, naming the first missing one. Otherwise the score grows by each asteroid's points, there is one explosion per contact at its laser, and the spawns are every hit asteroid's fragments in contact order. Both entities of every contact are despawned. |
| Asteroids.ScoreNeverDecreases | src/asteroid.rs:163 | The score never goes down. |
| Asteroids.PointsAtLeast | src/asteroid.rs:163 | Each contact adds at least 10 points. |
| Asteroids.BigAsteroidScenario | src/asteroid.rs:159-194 | One laser on a Big asteroid scores 40 and yields one explosion, four Medium fragments and two despawns. |
| Contact.ClassifyPair | src/contact.rs:38-69 | Every event comes from the pair with the right roles. A ship/asteroid pair yields the ship event in either order, and a laser/asteroid pair yields the laser event in either order. |
| Contact.ShipAsteroidEitherOrder | src/contact.rs:38-51 | A ship and an asteroid yield the same single event in either order. |
| Contact.LaserAsteroidEitherOrder | src/contact.rs:52-69 | A laser and an asteroid yield the same single event in either order. |
| Contact.NoAsteroidNoEvent | src/contact.rs:34-70 | A pair without an asteroid yields nothing. |
| Contact.AsteroidsBounce | src/contact.rs:34-70 | Two asteroids yield nothing. |
| Contact.ContactEvents | src/contact.rs:34-70 | The loop over a frame's collisions: each collision contributes at most four events, one per role test. |
| Contact.ContactEventsAppend | src/contact.rs:34 | Events follow the order of the collisions: the events of a concatenation are the concatenated events. |
| Contact.EventsComeFromCollisions | src/contact.rs:34-70 | Every event names the two entities of some collision, with the right roles. |
| Contact.ContactSystem | src/contact.rs:21-74 | The call succeeds exactly when at most one event is produced. Otherwise it aborts with the count. |
| Contact.TwoHitsAbort | src/contact.rs:71-73 | A ship hit by two asteroids in one call aborts. |
| Lasers.LaserVelocity | src/laser.rs:40-42 | The laser keeps only the emitter's vertical velocity and adds 500 along the facing. |
| Lasers.HorizontalVelocityIgnored | src/laser.rs:41 | The emitter's horizontal velocity never reaches the laser. |
| Lasers.SpawnLaser | src/laser.rs:36-75 | There is exactly one laser per request, in order, at the emitter's position. Each has a fresh, unfinished 2 s timer and is scoped to every game state. |
| Lasers.ExpiredIds | src/laser.rs:82-87 | The loop of the timeout system: at most one despawned handle per laser. |
| Lasers.ExpiredIdsMembership | src/laser.rs:85-86 | A handle is despawned exactly when some expired laser carries it. |
| Lasers.LaserTimeout | src/laser.rs:78-89 | Every timer advances by delta. A laser expires exactly when elapsed plus delta reaches its lifetime, and unexpired ones advance by exactly delta. The despawned list is exactly the expired lasers, in order. |
| Lasers.AgeIsTickBySum | src/laser.rs:83-84 | Ageing frame by frame equals ageing once by the total time. |
| Lasers.LaserLifetimeExact | src/laser.rs:58-60 | A laser has expired exactly when the frames sum to at least 2 s. |
| States.SweepBy | src/state.rs:85-89 | Teardown splits the entities into kept and despawned, and together they are the same multiset as before. Kept entities are allowed in the state; despawned ones are not. |
| States.EnterAppState | src/state.rs:80-90 | Entering an outer state despawns exactly those entities, among the ones carrying lists, whose outer-state list lacks it. Descendants are not modelled (see Left out). |
| States.EnterGameState | src/state.rs:80-90 | Entering a phase despawns exactly those entities, among the ones carrying lists, whose phase list lacks it. Descendants are not modelled (see Left out). |
| States.AllAllowedKept | src/state.rs:85-86 | When every entity is allowed, nothing is despawned. |
| States.SweepIdempotent | src/state.rs:85-89 | A second teardown for the same state despawns nothing. |
| States.ScopesAreIndependent | src/state.rs:60-76 | An entity without a list for one enum survives every entry into that enum. |
| States.TeardownHooks | src/state.rs:58-78 | Teardown is registered once on entry to every variant of both enums. |
| States.TeardownExample | src/state.rs:85-89 | A gameplay-scoped entity survives a pause and is removed on the start screen. |
| States.SetState | src/ui.rs:312-313 | The engine queues a change exactly when the target differs from the current state and nothing is queued yet; the current state is unchanged. |
| States.SecondSetRefused | src/ui.rs:312-313 | A second request in the same frame is refused. |
| States.NewRunState | src/state.rs:42-45 | A run starts with no arena and no score. |
| PlayerShip.SpawnShip | src/player_ship.rs:81-109 | A new ship has 3 lives, accumulated invincibility 0 and player id 1. Its invincibility timer is already finished, so it spawns vulnerable. Its cannon is not ready, and it is scoped to the Game outer state. |
| PlayerShip.ShipTimers | src/player_ship.rs:130-135 | The cannon and invincibility timers each take one tick by the same delta. Every other field of the ship is unchanged. |
| PlayerShip.ShipTimersAdd | src/player_ship.rs:130-135 | Ticking the ship timers frame by frame equals ticking them once by the total time. |
| PlayerShip.Rotation | src/player_ship.rs:155-161 | Left wins over right: rotation is 1 whenever left is held, -1 exactly when only right is held, and 0 exactly when neither is. |
| PlayerShip.ShipInput | src/player_ship.rs:137-177 | Nothing happens outside the Game phase. Left beats right, and angvel is written only for a nonzero rotation. The impulse is the thrust along the facing. A laser fires exactly when fire is held and the cannon is ready, and the cannon is then reset. |
| PlayerShip.NoDoubleFire | src/player_ship.rs:168-173 | Right after firing, the cannon cannot fire again. |
| PlayerShip.OnContact | src/player_ship.rs:190-215 | A vulnerable hit loses exactly one life, zeroes the accumulated time and re-arms. It underflows only at life 0. An invincible hit keeps life; it renews only while accumulated plus elapsed is under 5 s, and otherwise changes nothing. |
| PlayerShip.ContactKeepsShipValid | src/player_ship.rs:190-215 | A hit keeps the ship's invariants, including accumulated invincibility under 5 s. Any hit other than an absorbed one leaves the ship invincible. |
| PlayerShip.Step | src/player_ship.rs:186-215 | The call aborts exactly when the ship is missing, a vulnerable ship has no life left, or its last life goes and the GameOver request is refused; a non-lethal hit, a renewal and an absorption never abort. A missing ship aborts with MissingShip. A lethal hit explodes as ShipDead, despawns the ship and queues GameOver. A non-lethal vulnerable hit explodes as ShipContact. Renewal and absorption request nothing, and other ships are untouched. |
| PlayerShip.ShipDamage | src/player_ship.rs:179-217 | Over a batch of contacts, valid ships stay valid, a valid ship's life never underflows, and explosions are only appended. |
| PlayerShip.ShieldedShipKeepsLife | src/player_ship.rs:209-215 | An invincible ship keeps its life for the whole batch. |
| PlayerShip.AtMostOneLifePerFrame | src/player_ship.rs:186-216 | A batch of contacts costs a ship at most one life. |
| PlayerShip.LoneShipGameOverOnce | src/player_ship.rs:193-200 | A lone ship queues GameOver exactly when its last life goes, and never aborts. |
| PlayerShip.TwoDeathsAbort | src/player_ship.rs:200 | Two ships losing their last life in one frame abort on the second GameOver request. |
| MenuFlow.MenuInputAsWritten | src/menu.rs:211-254 | Every row of the transition table, judged on the current screen, with the last request winning. ExitToMenu asks for StartMenu, with phase Invalid and physics on unless a pause or resume of the same call overwrites them. Pause and resume switch physics off and on, with or without ExitToMenu. Without ExitToMenu, a call that neither pauses, resumes nor accepts on the game-over screen requests nothing. Accept on the game-over screen asks for StartMenu/Invalid, and Quit exits only from the start menu or the game-over screen. |
| MenuFlow.ExitWhilePausingAsWritten | src/menu.rs:220-235 | ExitToMenu together with PauseUnpause from a running game enters StartMenu with phase Pause and physics off. The next Accept then starts a game whose physics stays off. From a paused game the same keys enter StartMenu with phase Game. |
| MenuFlow.MenuInput | src/menu.rs:220-253 | With exit taking precedence, a valid screen stays valid. Every call stays put or follows a menu edge, and the exit and physics-off promises hold. |
| MenuFlow.MenuInputAgrees | src/menu.rs:220-253 | Without exit combined with pause or accept, the corrected system asks for exactly what the code asks for. |
| MenuFlow.MenuInputKeepsPhysicsConsistent | src/menu.rs:220-235 | Physics stays on exactly outside a paused game. |
| MenuFlow.PauseThenResume | src/menu.rs:225-235 | Pause and resume are judged on the current phase. A call never does both, and two calls pause and resume. |
| Ui.SetPhase | src/ui.rs:316-326 | The pause or resume request succeeds exactly when the engine accepts the phase change; it then queues the phase and writes the physics switch, leaving everything else as it was. |
| Ui.SetBoth | src/ui.rs:312-313 | Both state requests succeed exactly when the engine accepts each, and both are queued. |
| Ui.UiInputAsWritten | src/ui.rs:302-345 | The current states never change. From a valid screen with nothing queued, the call aborts exactly on exit combined with pause or accept. Otherwise it requests what the menu table requests. |
| Ui.ExitWhilePausingAborts | src/ui.rs:309-321 | ExitToMenu together with PauseUnpause from a running game aborts with StateAlreadyQueued. |
| Ui.UiInput | src/ui.rs:309-345 | With exit taking precedence, a valid screen with nothing queued never aborts, and the call requests what the corrected menu table requests. |
| Ui.GameUiSpawn | src/ui.rs:252-275 | One icon is created per starting life, with thresholds 1 to START_LIFE, scoped to a game. |
| Ui.PlayerLife | src/ui.rs:291-296 | The life shown is the player ship's, or 0 without a player or ship. |
| Ui.LifeUiSystem | src/ui.rs:297-299 | An icon is shown exactly when the life shown reaches its threshold. |
| Ui.NoPlayerNoIcons | src/ui.rs:291-299 | Without a player ship, no icon is shown. |
| Ui.IconsShowLife | src/ui.rs:256-299 | The number of icons shown is min(life, START_LIFE). |
| LifeIcons.VisibleCount | src/hud.rs:106-111 | With thresholds 1 to n, exactly min(life, n) icons are shown. |
| LifeIcons.ShownIconsArePrefix | src/ui.rs:297-299 | The icons shown always form a prefix of the row. |
| MenuCursor.Cycle | src/menu/mod.rs:234-241 | Up then Down move the cursor modulo the number of entries. The result lies in [0, n) and is congruent to the old selection plus the net shift. With no press nothing changes; a press on an empty menu aborts. |
| MenuCursor.UpThenDown | src/menu/mod.rs:234-241 | Up followed by Down restores the selection. |
| MenuCursor.UpAndDownCancel | src/menu/mod.rs:234-241 | Up and Down in the same frame cancel. |
| MenuCursor.CursorWraps | src/menu/mod.rs:234-241 | Down from the last entry wraps to the first, and Up from the first wraps to the last. |
| MenuCursor.Highlights | src/menu/mod.rs:243-250 | A button is highlighted exactly when its id is the selection. |
| MenuCursor.ExactlyOneHighlighted | src/menu/mod.rs:242-251 | With button ids 0 to n-1, exactly one button is highlighted when the selection is in range. |
| MenuCursor.MenuSelection | src/menu/mod.rs:229-253 | The selection system moves the cursor. It recolours exactly when the menu changed, and only the selected button is highlighted. An empty menu aborts on a press. |
| MenuCursor.DefaultMenuAborts | src/menu/mod.rs:135 | Before any menu is spawned, the default menu has no entries, so a cursor key aborts. |
| MenuCursor.HandlerSelection | src/menu/handler.rs:126-150 | The system acts only when exactly one menu exists, and then behaves like the single-resource revision. |
| MenuCursor.HandlerHighlightsOne | src/menu/handler.rs:131-147 | With one in-range menu, the selection stays in range and a recolouring highlights exactly one button. |
| GameFlow.InitialMenus | src/menu/mod.rs:173-209 | The main, game-over and pause menus have 3, 2 and 3 entries and start on entry 0. Every entry has an effect, only the pause title blinks, and each menu is scoped to its state. |
| MenuSystems.MainMenuAccept | src/menu/mod.rs:255-272 | Accept on the main menu starts a game on entry 0 and quits on any other entry. |
| MenuSystems.CreditsEntryQuits | src/menu/mod.rs:262-270 | The "Credits" entry quits instead of opening the credits. |
| MenuSystems.GameMenuInput | src/menu/mod.rs:281-312 | PauseUnpause toggles Running and Paused, judged on the current phase. Accept when Paused resumes on 0, goes to the menu on 1 and quits otherwise. Accept when Over goes to the menu on 0 and quits otherwise. |
| MenuSystems.GameMenuSystem | src/menu/mod.rs:148-151 | The in-game system does nothing outside a game. |
| MenuSystems.GameMenusFollowTheirEntries | src/menu/mod.rs:185-209 | Accepting an entry of the pause or game-over menu does what its label says. |
| MenuSystems.PauseUnpauseRoundTrip | src/menu/mod.rs:281-288 | Pressing PauseUnpause in two frames pauses and then resumes. |
| MenuSystems.GameMenuFollowsFlow | src/menu/interaction.rs:47-79 | An in-game call stays put or follows an edge of the game flow. |
| MenuSystems.MainMenuInput | src/menu/interaction.rs:3-37 | The system acts only with exactly one menu. On the main menu, entry 0 starts a game, entry 1 opens the credits and any other entry quits. On the credits screen, entry 0 goes back and any other entry quits. |
| MenuSystems.MainMenuFollowsItsEntries | src/menu/interaction.rs:12-23 | Every main-menu entry does what its label says. |
| MenuSystems.MainMenuFollowsFlow | src/menu/interaction.rs:10-34 | A main-menu call stays put or follows an edge of the game flow. |
| MenuSystems.GameMenuInteraction | src/menu/interaction.rs:39-82 | Without exactly one menu, only PauseUnpause is honoured: there is no menu change and no exit. |
| MenuSystems.PauseWithoutMenu | src/menu/interaction.rs:47-54 | PauseUnpause pauses and resumes even with no menu on screen. |
| Hud.HudSpawn | src/hud.rs:69-84 | One icon per starting life, with thresholds 1 to START_LIFE, scoped to a game. |
| Hud.HudLife | src/hud.rs:100-105 | The life shown is that of the last changed ship of player 1, or 0 when none changed. |
| Hud.HudLifeSystem | src/hud.rs:106-111 | An icon is shown exactly when the life shown reaches its threshold. |
| Hud.HudShowsLife | src/hud.rs:70-111 | The number of icons shown is min(life shown, START_LIFE). |
| Hud.UnchangedShipHidesIcons | src/hud.rs:100-111 | In a frame where player 1's ship did not change, every icon is hidden. |
| Player.SpawnPlayer | src/player.rs:40-52 | The ship has START_LIFE lives, rotation speed 0.3, thrust 60 and an unready 0.2 s cannon. It is allowed in every state but the start menu and is recorded as the run's player. |
| Player.ShipCannon | src/player.rs:92-96 | Every cannon timer advances by the frame's time, and nothing else changes. |
| Player.Steer | src/player.rs:115-153 | The torque is ±rotation speed, applied only when A differs from D. The force is the thrust along the facing, applied only while W is held. The cannon fires only when ready. A ship that fires differs from before only in its cannon timer, which is reset to elapsed 0 with the same duration; a ship that does not fire is unchanged. |
| Player.KeyTransition | src/player.rs:155-177 | Apart from Back, a transition is asked for exactly on Enter on the start-menu and game-over screens, or on Escape in a game or a pause. |
| Player.KeysDriveEdges | src/player.rs:155-177 | Every key transition is an edge of the state machine, and every edge has a key that drives it. |
| Player.InGame | src/player.rs:113-158 | In a game, Escape adds a Pause request and switches physics off, the recorded player is steered as the keys say, a firing ship changes only by its cannon reset, and every other ship is unchanged. |
| Player.Menus | src/player.rs:159-177 | Outside a game, Enter and Escape ask for the table's transition. Escape resumes physics in a pause and quits elsewhere, and nothing else changes. |
| Player.UserInput | src/player.rs:98-179 | Back asks for StartMenu first, in every state. The only other transition is the one the table gives: StartMenu+Enter to Game, GameOver+Enter to StartMenu, Game+Escape to Pause, Pause+Escape to Game. With no recorded player the call aborts in a game. Escape switches physics off in a game and on in a pause, and quits from the start and game-over screens. Only a game steers or fires. In a game the player's ship that fires changes only by its cannon timer being reset, and every other ship is unchanged. |
| Player.BothTurnKeysCancel | src/player.rs:120-126 | Holding A and D together applies no torque. |
| Player.CannonGatesFire | src/player.rs:144-153 | After a shot, holding Space does not fire again within the cannon's period. |
| Player.OneTransitionKeepsPhysics | src/player.rs:155-177 | Without Back, a call asks for at most one transition, along an edge (StartMenu to Game, GameOver to StartMenu, Game to Pause, Pause to Game), and physics stays on exactly outside a pause. |

## Left out

- Float physics is not modelled: ship dampening with `powf`, quaternion rotation of thrust and muzzle, impulses as rigid-body integration, and the invincibility alpha blink. Facings are unit vectors given as inputs.
- Random number generation is not modelled. Each draw is an input constrained to the range the source draws from.
- Rendering, assets, sounds, styling, colours, text, key bindings and the score text systems are not modelled.
- Explosions are reduced to their kind and position; `src/explosion.rs` is not part of this model.
- The arena width and height of the newer revisions live in a file that is not part of this model, so `Asteroids` takes them as a `Bounds` parameter.
- `ANY_GAME_STATE` is also defined in a file outside this model, so `Lasers.SpawnLaser` takes it as a parameter.
- START_LIFE in `src/hud.rs` and `src/player.rs` is defined in files outside this model, so it is a parameter. `src/player_ship.rs` defines it as 3, and `PlayerShip` uses that value.
- Timers use exact real seconds. `Duration` nanosecond rounding and `f32` precision are not modelled.
- Bevy's change detection is an input: the `inserted` flag marks a menu created this frame.
- Scheduling and run conditions are not modelled, except the `AppState::Game` condition of the in-game menu system (`MenuSystems.GameMenuSystem`).
- MenuCursor.Cycle: does not model `i32` wrap-around of `selected_id ± 1`. The selection always stays within the menu's entries, far from the `i32` limits.
- Player.UserInput: `transit_to` comes from a state module outside this model, so its semantics are unknown. The model records the requested targets in order, and judges the branches on the state at the start of the call.
- Player.UserInput: the laser spawned by `spawn_laser` of that revision is reduced to a `fired` flag.
- Contact.ContactSystem: the debug `println!` output is not modelled.
- States.EnterAppState, States.EnterGameState: `despawn_recursive` (`src/state.rs:88`) also removes every descendant of a despawned entity, whatever the descendant's own list says. The model has flat entities with no parent relation, so these members say nothing about descendants.
- Asteroids.AsteroidDamage: the score is an unbounded natural number. The source's `u32 +=` (`src/asteroid.rs:163`) could overflow, but only after more than 100 million Big asteroids.

## Findings

| source | as written | input that shows it | evidently intended | confidence | as-written member | corrected member |
|---|---|---|---|---|---|---|
| src/menu.rs:220-235 | ExitToMenu writes StartMenu/Invalid with physics on. The PauseUnpause branch is judged on the unchanged current phase, so it then overwrites the phase (and, when pausing, turns physics off). | From Game/Game, press ExitToMenu (Back) and PauseUnpause (Escape) in the same frame. The start menu is entered with phase Pause and physics off. The next Accept starts a game whose physics stays off. From Game/Pause, the same keys enter the start menu with phase Game. | Leaving for the menu wins: StartMenu/Invalid with physics on. | high, not executed | MenuFlow.ExitWhilePausingAsWritten | MenuFlow.MenuInput |
| src/ui.rs:309-326 | ExitToMenu calls `gamestate.set(Invalid).unwrap()`. The pause branch then calls `gamestate.set(Pause).unwrap()` in the same frame, and the engine refuses it because a transition is already queued. | From Game/Game, press ExitToMenu and PauseUnpause in the same frame. The `unwrap` panics on StateAlreadyQueued. ExitToMenu with Accept on the game-over screen panics the same way. | Leaving for the menu wins and nothing is refused. | high, not executed | Ui.ExitWhilePausingAborts | Ui.UiInput |

=== FILE: arena.dfy ===
/**
  The arena of the oldest revision: its dimensions, the screen-edge wrap of
  every physics body, and the accelerating asteroid cadence. The cadence rule
  (`Cadence`, `RandomBigAsteroid`) is shared with the later revision in
  module Asteroids, which only changes where the arena dimensions come from.
 */
module Arena {
  import opened Wrappers
  import opened Components
  import opened Timers

  const WindowWidth: nat := 1280
  const WindowHeight: nat := 800
  const CameraScale: real := 0.1
  const ArenaWidth: real := WindowWidth as real * CameraScale
  const ArenaHeight: real := WindowHeight as real * CameraScale

  /** Initial spawn interval, its shrink factor and its floor, in seconds. */
  const FirstSpawnInterval: real := 5.0
  const SpawnShrink: real := 0.8
  const MinSpawnInterval: real := 0.1
  /** No cadence spawn happens while this many asteroids are alive. */
  const MaxAsteroids: nat := 20

  /** The wrap rectangle, centred on the origin. */
  datatype Bounds = Bounds(width: real, height: real) {
    predicate Valid() {
      width > 0.0 && height > 0.0
    }
  }

  const OldBounds: Bounds := Bounds(ArenaWidth, ArenaHeight)

  /** The arena resource of this revision: only the asteroid spawn timer. */
  datatype ArenaState = ArenaState(asteroidSpawnTimer: Timer)

  /** A physics body as the wrap rule sees it. */
  datatype Body = Body(pos: Vec2, vel: Vec2)

  /** A request for one asteroid: where, how fast, how fast it spins. */
  datatype Spawn = Spawn(x: real, y: real, vx: real, vy: real, angvel: real)

  /**
    The random draws of one cadence spawn: `side` 0 is the top edge, any
    other value the left edge; `along` is the position along that edge.
   */
  datatype CadenceDraw = CadenceDraw(side: nat, along: real, vx: real, vy: real, angvel: real)

  /** The ranges the random number generator draws from. */
  predicate ValidDraw(bounds: Bounds, d: CadenceDraw) {
    && d.side < 2
    && (if d.side == 0 then -bounds.width / 2.0 <= d.along < bounds.width / 2.0
        else -bounds.height / 2.0 <= d.along < bounds.height / 2.0)
    && -bounds.width / 4.0 <= d.vx < bounds.width / 4.0
    && -bounds.height / 4.0 <= d.vy < bounds.height / 4.0
    && -10.0 <= d.angvel < 10.0
  }

  function Max(a: real, b: real): real {
    if a >= b then a else b
  }

  /** The durations the spawn timer can have: between the floor and the first interval. */
  predicate CadenceDuration(d: real) {
    MinSpawnInterval <= d <= FirstSpawnInterval
  }

  /** The arena as `setup` creates it: a fresh one-shot 5 s spawn timer. */
  function Setup(): (a: ArenaState)
    ensures a.asteroidSpawnTimer.Valid() && !a.asteroidSpawnTimer.Finished()
    ensures a.asteroidSpawnTimer.duration == FirstSpawnInterval
    ensures CadenceDuration(a.asteroidSpawnTimer.duration)
  {
    ArenaState(FromSeconds(FirstSpawnInterval))
  }

  /** The interval after one spawn: 80 % of the previous one, never below the floor. */
  function Shrink(d: real): (d': real)
    ensures d' >= MinSpawnInterval
    ensures d' >= SpawnShrink * d
    ensures d' == SpawnShrink * d || d' == MinSpawnInterval
    ensures CadenceDuration(d) ==> CadenceDuration(d') && d' <= d
  {
    Max(SpawnShrink * d, MinSpawnInterval)
  }

  /**
    One frame of the spawn cadence: tick the timer; when it finishes, reset
    it, and if fewer than `MaxAsteroids` asteroids are alive also shrink its
    duration and ask for a spawn. At the cap the duration is kept as it is.
   */
  function Cadence(t: Timer, delta: real, liveAsteroids: nat): (r: (Timer, bool))
    requires t.Valid() && CadenceDuration(t.duration) && delta >= 0.0
    ensures r.0.Valid() && CadenceDuration(r.0.duration)
    ensures r.1 <==> t.elapsed + delta >= t.duration && liveAsteroids < MaxAsteroids
    ensures t.elapsed + delta >= t.duration ==> r.0.elapsed == 0.0 && !r.0.Finished()
    ensures t.elapsed + delta < t.duration ==> r.0 == Timer(t.elapsed + delta, t.duration)
    ensures r.1 ==> r.0.duration == Shrink(t.duration)
    ensures !r.1 ==> r.0.duration == t.duration
  {
    var ticked := Tick(t, delta);
    if ticked.Finished() then
      var reset := Reset(ticked);
      if liveAsteroids < MaxAsteroids then (reset.(duration := Shrink(reset.duration)), true)
      else (reset, false)
    else (ticked, false)
  }

  /** A Big asteroid entering from the top or the left edge, from the random draws. */
  function RandomBigAsteroid(bounds: Bounds, d: CadenceDraw): (s: Spawn)
    requires bounds.Valid() && ValidDraw(bounds, d)
    ensures (s.y == bounds.height / 2.0 && -bounds.width / 2.0 <= s.x < bounds.width / 2.0)
         || (s.x == -bounds.width / 2.0 && -bounds.height / 2.0 <= s.y < bounds.height / 2.0)
    ensures -bounds.width / 4.0 <= s.vx < bounds.width / 4.0
    ensures -bounds.height / 4.0 <= s.vy < bounds.height / 4.0
    ensures -10.0 <= s.angvel < 10.0
    ensures d.side == 0 ==> s.x == d.along && s.y == bounds.height / 2.0
    ensures d.side != 0 ==> s.x == -bounds.width / 2.0 && s.y == d.along
    ensures s.vx == d.vx && s.vy == d.vy && s.angvel == d.angvel
  {
    var (x, y) := if d.side == 0 then (d.along, bounds.height / 2.0) else (-bounds.width / 2.0, d.along);
    Spawn(x, y, d.vx, d.vy, d.angvel)
  }

  /** The oldest revision's cadence system: one frame, returning the new arena and the spawned asteroid, if any. */
  function SpawnRandomAsteroid(a: ArenaState, delta: real, liveAsteroids: nat, d: CadenceDraw): (r: (ArenaState, Option<Spawn>))
    requires a.asteroidSpawnTimer.Valid() && CadenceDuration(a.asteroidSpawnTimer.duration)
    requires delta >= 0.0 && ValidDraw(OldBounds, d)
    ensures r.0.asteroidSpawnTimer.Valid() && CadenceDuration(r.0.asteroidSpawnTimer.duration)
    ensures r.1.Some? <==> a.asteroidSpawnTimer.elapsed + delta >= a.asteroidSpawnTimer.duration && liveAsteroids < MaxAsteroids
    ensures r.1.Some? ==> r.0.asteroidSpawnTimer.duration == Shrink(a.asteroidSpawnTimer.duration)
    ensures r.1.None? ==> r.0.asteroidSpawnTimer.duration == a.asteroidSpawnTimer.duration
    ensures a.asteroidSpawnTimer.elapsed + delta >= a.asteroidSpawnTimer.duration ==>
      r.0.asteroidSpawnTimer.elapsed == 0.0 && !r.0.asteroidSpawnTimer.Finished()
    ensures a.asteroidSpawnTimer.elapsed + delta < a.asteroidSpawnTimer.duration ==>
      r.0.asteroidSpawnTimer == Timer(a.asteroidSpawnTimer.elapsed + delta, a.asteroidSpawnTimer.duration)
    ensures r.1.Some? ==> r.1.value == RandomBigAsteroid(OldBounds, d)
    ensures r.1.Some? ==> var e := r.1.value;
      && ((e.y == ArenaHeight / 2.0 && -ArenaWidth / 2.0 <= e.x < ArenaWidth / 2.0)
          || (e.x == -ArenaWidth / 2.0 && -ArenaHeight / 2.0 <= e.y < ArenaHeight / 2.0))
      && -ArenaWidth / 4.0 <= e.vx < ArenaWidth / 4.0
      && -ArenaHeight / 4.0 <= e.vy < ArenaHeight / 4.0
      && -10.0 <= e.angvel < 10.0
  {
    var (t, spawn) := Cadence(a.asteroidSpawnTimer, delta, liveAsteroids);
    (ArenaState(t), if spawn then Some(RandomBigAsteroid(OldBounds, d)) else None)
  }

  /** Spawn intervals after `n` spawns, starting from `d`. */
  function ShrinkN(d: real, n: nat): real
    decreases n
  {
    if n == 0 then d else ShrinkN(Shrink(d), n - 1)
  }

  /** The first spawn brings the interval from 5 s to 4 s. */
  lemma FirstShrink()
    ensures Shrink(FirstSpawnInterval) == 4.0
  {
  }

  /** Once at the floor, the interval stays there. */
  lemma {:induction false} FloorIsStable(n: nat)
    ensures ShrinkN(MinSpawnInterval, n) == MinSpawnInterval
  {
    if n > 0 {
      assert Shrink(MinSpawnInterval) == MinSpawnInterval;
      FloorIsStable(n - 1);
    }
  }

  lemma {:induction false} ShrinkNSplit(d: real, m: nat, n: nat)
    decreases m
    ensures ShrinkN(d, m + n) == ShrinkN(ShrinkN(d, m), n)
  {
    if m > 0 {
      ShrinkNSplit(Shrink(d), m - 1, n);
    }
  }

  /**
    The cadence accelerates to its floor: from the first 5 s interval,
    eighteen spawns bring it to 0.1 s, and it stays there for every later spawn.
   */
  lemma CadenceReachesFloor(n: nat)
    requires n >= 18
    ensures ShrinkN(FirstSpawnInterval, n) == MinSpawnInterval
  {
    var d := FirstSpawnInterval;
    assert ShrinkN(d, 6) == 1.31072 by {
      assert Shrink(5.0) == 4.0;
      assert Shrink(4.0) == 3.2;
      assert Shrink(3.2) == 2.56;
      assert Shrink(2.56) == 2.048;
      assert Shrink(2.048) == 1.6384;
      assert Shrink(1.6384) == 1.31072;
    }
    assert ShrinkN(1.31072, 6) == 0.3435973836800000 by {
      assert Shrink(1.31072) == 1.048576;
      assert Shrink(1.048576) == 0.8388608;
      assert Shrink(0.8388608) == 0.67108864;
      assert Shrink(0.67108864) == 0.536870912;
      assert Shrink(0.536870912) == 0.4294967296;
      assert Shrink(0.4294967296) == 0.34359738368;
    }
    assert ShrinkN(0.34359738368, 6) == MinSpawnInterval by {
      assert Shrink(0.34359738368) == 0.274877906944;
      assert Shrink(0.274877906944) == 0.2199023255552;
      assert Shrink(0.2199023255552) == 0.17592186044416;
      assert Shrink(0.17592186044416) == 0.140737488355328;
      assert Shrink(0.140737488355328) == 0.1125899906842624;
      assert Shrink(0.1125899906842624) == MinSpawnInterval;
      FloorIsStable(0);
    }
    ShrinkNSplit(d, 6, 6);
    ShrinkNSplit(d, 12, 6);
    ShrinkNSplit(d, 18, n - 18);
    FloorIsStable(n - 18);
  }

  /** Whether a coordinate has left the arena on one side and is still moving away from it. */
  predicate Outbound(p: real, v: real, half: real) {
    (p < -half && v < 0.0) || (p > half && v > 0.0)
  }

  /**
    The wrap of one coordinate: a coordinate that is past an edge and still
    moving outward jumps to the opposite edge; any other coordinate stays.
   */
  function WrapAxis(p: real, v: real, half: real): (p': real)
    requires half > 0.0
    ensures !Outbound(p', v, half)
    ensures !Outbound(p, v, half) ==> p' == p
    ensures Outbound(p, v, half) ==> (v < 0.0 ==> p' == half) && (v > 0.0 ==> p' == -half)
  {
    if p < -half && v < 0.0 then half
    else if p > half && v > 0.0 then -half
    else p
  }

  /** The wrap of one body; the flag says whether its position was written at all. */
  function WrapBody(b: Body, bounds: Bounds): (r: (Body, bool))
    requires bounds.Valid()
    ensures r.0.vel == b.vel
    ensures r.1 <==> Outbound(b.pos.x, b.vel.x, bounds.width / 2.0) || Outbound(b.pos.y, b.vel.y, bounds.height / 2.0)
    ensures !r.1 ==> r.0 == b
    ensures r.0.pos.x == WrapAxis(b.pos.x, b.vel.x, bounds.width / 2.0)
    ensures r.0.pos.y == WrapAxis(b.pos.y, b.vel.y, bounds.height / 2.0)
  {
    var x := WrapAxis(b.pos.x, b.vel.x, bounds.width / 2.0);
    var y := WrapAxis(b.pos.y, b.vel.y, bounds.height / 2.0);
    var updated := x != b.pos.x || y != b.pos.y;
    (if updated then Body(Vec2(x, y), b.vel) else b, updated)
  }

  /** Wrapping twice is wrapping once: a wrapped body lands on an edge that does not send it back. */
  lemma WrapIdempotent(b: Body, bounds: Bounds)
    requires bounds.Valid()
    ensures WrapBody(WrapBody(b, bounds).0, bounds) == (WrapBody(b, bounds).0, false)
  {
  }

  /** A body strictly inside the arena is never moved, whatever its velocity. */
  lemma InsideIsUntouched(b: Body, bounds: Bounds)
    requires bounds.Valid()
    requires -bounds.width / 2.0 <= b.pos.x <= bounds.width / 2.0
    requires -bounds.height / 2.0 <= b.pos.y <= bounds.height / 2.0
    ensures WrapBody(b, bounds) == (b, false)
  {
  }

  /** One past the right edge moving right wraps to the left edge; moving back in it stays. */
  lemma WrapExamples(y: real)
    requires -ArenaHeight / 2.0 <= y <= ArenaHeight / 2.0
    ensures WrapBody(Body(Vec2(ArenaWidth / 2.0 + 1.0, y), Vec2(5.0, 0.0)), OldBounds).0.pos == Vec2(-ArenaWidth / 2.0, y)
    ensures WrapBody(Body(Vec2(ArenaWidth / 2.0 + 1.0, y), Vec2(-5.0, 0.0)), OldBounds).1 == false
  {
  }

  /**
    The position system: every body is wrapped, none has its velocity changed,
    and only the bodies that wrapped are written back.
   */
  method PositionSystem(bodies: seq<Body>) returns (out: seq<Body>, written: seq<nat>)
    ensures |out| == |bodies|
    ensures forall i :: 0 <= i < |bodies| ==> out[i] == WrapBody(bodies[i], OldBounds).0
    ensures forall i :: 0 <= i < |bodies| ==> out[i].vel == bodies[i].vel
    ensures forall i :: 0 <= i < |bodies| ==> (i in written <==> out[i] != bodies[i])
    ensures forall k :: 0 <= k < |written| ==> written[k] < |bodies|
  {
    out := [];
    written := [];
    var i := 0;
    while i < |bodies|
      invariant 0 <= i <= |bodies|
      invariant |out| == i
      invariant forall j :: 0 <= j < i ==> out[j] == WrapBody(bodies[j], OldBounds).0
      invariant forall j :: 0 <= j < i ==> (j in written <==> out[j] != bodies[j])
      invariant forall k :: 0 <= k < |written| ==> written[k] < i
    {
      var (b, updated) := WrapBody(bodies[i], OldBounds);
      out := out + [b];
      if updated {
        written := written + [i];
      }
      i := i + 1;
    }
  }
}

=== FILE: asteroid.dfy ===
/**
  Asteroids of the latest revision: the size tables, the spawn cadence (with
  the arena dimensions of this revision as a parameter), the materialisation
  of spawn requests, and the destruction of an asteroid hit by a laser, which
  scores it and splits it into four smaller ones.
 */
module Asteroids {
  import opened Wrappers
  import opened Components
  import opened Timers
  import Arena

  datatype AsteroidSize = Big | Medium | Small

  /** Position in the size order, smallest first. */
  function Rank(s: AsteroidSize): nat {
    match s
    case Big => 2
    case Medium => 1
    case Small => 0
  }

  /** Points scored for destroying an asteroid of this size. */
  function Score(s: AsteroidSize): (points: nat)
    ensures points > 0
  {
    match s
    case Big => 40
    case Medium => 20
    case Small => 10
  }

  /** The size of the fragments of a destroyed asteroid and the radius they are spread over; Small ones do not split. */
  function Split(s: AsteroidSize): (r: Option<(AsteroidSize, real)>)
    ensures r.None? <==> s == Small
    ensures r.Some? ==> Rank(r.value.0) + 1 == Rank(s) && r.value.1 > 0.0
  {
    match s
    case Big => Some((Medium, 20.0))
    case Medium => Some((Small, 10.0))
    case Small => None
  }

  /** Collider radius of an asteroid of this size: half its sprite's width. */
  function Radius(s: AsteroidSize): (r: real)
    ensures r > 0.0
  {
    match s
    case Big => 101.0 / 2.0
    case Medium => 43.0 / 2.0
    case Small => 28.0 / 2.0
  }

  /** The three tables agree with the size order: bigger asteroids score more and are larger. */
  lemma TablesFollowSize(a: AsteroidSize, b: AsteroidSize)
    requires Rank(a) > Rank(b)
    ensures Score(a) > Score(b)
    ensures Radius(a) > Radius(b)
    ensures Split(a).Some?
  {
  }

  /** The table of points, as the scoring promises: 40, 20 and 10. */
  lemma ScoreTable()
    ensures Score(Big) == 40 && Score(Medium) == 20 && Score(Small) == 10
  {
  }

  /**
    How many more times an asteroid of this size can split. Its recursion
    terminates because each split strictly shrinks the size: at most two
    generations follow a Big asteroid, none a Small one.
   */
  function Generations(s: AsteroidSize): (n: nat)
    decreases Rank(s)
    ensures n <= 2
    ensures s != Big ==> n <= 1
    ensures n == 0 <==> s == Small
  {
    match Split(s)
    case None => 0
    case Some((child, _)) => 1 + Generations(child)
  }

  /**
    Points for destroying an asteroid and every fragment that descends from
    it: four fragments per split, recursively.
   */
  function ClearingScore(s: AsteroidSize): (points: nat)
    decreases Rank(s)
    ensures points >= Score(s)
    ensures s == Small ==> points == Score(s)
  {
    match Split(s)
    case None => Score(s)
    case Some((child, _)) => Score(s) + 4 * ClearingScore(child)
  }

  /** Clearing a Big asteroid and all its fragments is worth 40 + 4 * 20 + 16 * 10 points. */
  lemma {:induction false} ClearingABigAsteroid()
    ensures ClearingScore(Big) == 280
  {
    assert ClearingScore(Small) == 10;
    assert ClearingScore(Medium) == 20 + 4 * 10;
  }

  /** The arena resource of this revision: the spawn timer and the running score. */
  datatype ArenaRes = ArenaRes(asteroidSpawnTimer: Timer, score: nat)

  /** A request to create one asteroid. */
  datatype AsteroidSpawnEvent = AsteroidSpawnEvent(size: AsteroidSize, x: real, y: real, vx: real, vy: real, angvel: real)

  /** An asteroid entity as created from a request. */
  datatype AsteroidEntity = AsteroidEntity(size: AsteroidSize, pos: Vec2, vel: Vec2, angvel: real, colliderRadius: real)

  /** A live asteroid as the destruction system reads it. */
  datatype AsteroidBody = AsteroidBody(size: AsteroidSize, pos: Vec2, angvel: real)

  /** A laser touched an asteroid. */
  datatype LaserAsteroidContact = LaserAsteroidContact(laser: EntityId, asteroid: EntityId)

  /**
    The cadence system of this revision: on top of the shared cadence rule,
    the spawn becomes a request for a Big asteroid; the score is untouched.
   */
  function ArenaAsteroids(arena: ArenaRes, delta: real, liveAsteroids: nat, bounds: Arena.Bounds, d: Arena.CadenceDraw)
    : (r: (ArenaRes, Option<AsteroidSpawnEvent>))
    requires arena.asteroidSpawnTimer.Valid() && Arena.CadenceDuration(arena.asteroidSpawnTimer.duration)
    requires delta >= 0.0 && bounds.Valid() && Arena.ValidDraw(bounds, d)
    ensures r.0.score == arena.score
    ensures r.0.asteroidSpawnTimer.Valid() && Arena.CadenceDuration(r.0.asteroidSpawnTimer.duration)
    ensures r.1.Some? <==> arena.asteroidSpawnTimer.elapsed + delta >= arena.asteroidSpawnTimer.duration
                           && liveAsteroids < Arena.MaxAsteroids
    ensures r.1.Some? ==> r.0.asteroidSpawnTimer.duration == Arena.Shrink(arena.asteroidSpawnTimer.duration)
    ensures r.1.None? ==> r.0.asteroidSpawnTimer.duration == arena.asteroidSpawnTimer.duration
    ensures arena.asteroidSpawnTimer.elapsed + delta >= arena.asteroidSpawnTimer.duration ==>
      r.0.asteroidSpawnTimer.elapsed == 0.0 && !r.0.asteroidSpawnTimer.Finished()
    ensures arena.asteroidSpawnTimer.elapsed + delta < arena.asteroidSpawnTimer.duration ==>
      r.0.asteroidSpawnTimer == Timer(arena.asteroidSpawnTimer.elapsed + delta, arena.asteroidSpawnTimer.duration)
    ensures r.1.Some? ==> r.1.value.size == Big
    ensures r.1.Some? ==> var s := Arena.RandomBigAsteroid(bounds, d);
      r.1.value == AsteroidSpawnEvent(Big, s.x, s.y, s.vx, s.vy, s.angvel)
    ensures r.1.Some? ==> var e := r.1.value;
      || (e.y == bounds.height / 2.0 && -bounds.width / 2.0 <= e.x < bounds.width / 2.0)
      || (e.x == -bounds.width / 2.0 && -bounds.height / 2.0 <= e.y < bounds.height / 2.0)
    ensures r.1.Some? ==> var e := r.1.value;
      && -bounds.width / 4.0 <= e.vx < bounds.width / 4.0
      && -bounds.height / 4.0 <= e.vy < bounds.height / 4.0
      && -10.0 <= e.angvel < 10.0
  {
    var (t, spawn) := Arena.Cadence(arena.asteroidSpawnTimer, delta, liveAsteroids);
    var event := if spawn then
        var s := Arena.RandomBigAsteroid(bounds, d);
        Some(AsteroidSpawnEvent(Big, s.x, s.y, s.vx, s.vy, s.angvel))
      else None;
    (arena.(asteroidSpawnTimer := t), event)
  }

  /** At the cap of live asteroids a finished timer re-arms, but neither spawns nor shortens. */
  lemma CapKeepsCadence(arena: ArenaRes, delta: real, bounds: Arena.Bounds, d: Arena.CadenceDraw)
    requires arena.asteroidSpawnTimer.Valid() && Arena.CadenceDuration(arena.asteroidSpawnTimer.duration)
    requires delta >= 0.0 && bounds.Valid() && Arena.ValidDraw(bounds, d)
    requires arena.asteroidSpawnTimer.elapsed + delta >= arena.asteroidSpawnTimer.duration
    ensures var r := ArenaAsteroids(arena, delta, Arena.MaxAsteroids, bounds, d);
      && r.1.None?
      && r.0.asteroidSpawnTimer == Timer(0.0, arena.asteroidSpawnTimer.duration)
  {
  }

  /**
    The two revisions of the cadence agree: with the oldest revision's
    arena dimensions, the event-based system re-arms the timer the same way
    and asks for the very asteroid the oldest system spawns.
   */
  lemma RevisionsAgree(arena: ArenaRes, delta: real, liveAsteroids: nat, d: Arena.CadenceDraw)
    requires arena.asteroidSpawnTimer.Valid() && Arena.CadenceDuration(arena.asteroidSpawnTimer.duration)
    requires delta >= 0.0 && Arena.ValidDraw(Arena.OldBounds, d)
    ensures var r := ArenaAsteroids(arena, delta, liveAsteroids, Arena.OldBounds, d);
      var oldest := Arena.SpawnRandomAsteroid(Arena.ArenaState(arena.asteroidSpawnTimer), delta, liveAsteroids, d);
      && r.0.asteroidSpawnTimer == oldest.0.asteroidSpawnTimer
      && (r.1.Some? <==> oldest.1.Some?)
      && (r.1.Some? ==> r.1.value == AsteroidSpawnEvent(Big, oldest.1.value.x, oldest.1.value.y,
                                                        oldest.1.value.vx, oldest.1.value.vy, oldest.1.value.angvel))
  {
  }

  /** Each spawn request becomes exactly one asteroid of the requested size, with the collider of that size. */
  function SpawnAsteroidEvents(events: seq<AsteroidSpawnEvent>): (r: seq<AsteroidEntity>)
    ensures |r| == |events|
    ensures forall i :: 0 <= i < |events| ==>
      && r[i].size == events[i].size
      && r[i].pos == Vec2(events[i].x, events[i].y)
      && r[i].vel == Vec2(events[i].vx, events[i].vy)
      && r[i].angvel == events[i].angvel
      && r[i].colliderRadius == Radius(events[i].size)
  {
    seq(|events|, i requires 0 <= i < |events| =>
      var e := events[i];
      AsteroidEntity(e.size, Vec2(e.x, e.y), Vec2(e.vx, e.vy), e.angvel, Radius(e.size)))
  }

  /** A uniform random draw in [-1, 1), scaled to the wanted range where it is used. */
  datatype UnitDraw = UnitDraw(u: real, w: real)

  predicate ValidUnit(d: UnitDraw) {
    -1.0 <= d.u < 1.0 && -1.0 <= d.w < 1.0
  }

  predicate ValidChildDraws(draws: seq<UnitDraw>) {
    |draws| == 4 && forall i :: 0 <= i < 4 ==> ValidUnit(draws[i])
  }

  /** A unit draw scaled to the range [-k, k). */
  function Scaled(u: real, k: real): (v: real)
    requires -1.0 <= u < 1.0 && k > 0.0
    ensures -k <= v < k
  {
    u * k
  }

  /** The speed bound of a fragment spread over `radius`: the arena dimension divided by `radius / 4`. */
  function FragmentSpeed(dimension: real, radius: real): (v: real)
    requires dimension > 0.0 && radius > 0.0
    ensures v > 0.0
  {
    dimension / (radius / 4.0)
  }

  /** Whether `c` sits at one of the four diagonal offsets (+-1.5 r, +-1.5 r) from `p`. */
  predicate Diagonal(c: AsteroidSpawnEvent, p: Vec2, radius: real) {
    && (c.x == p.x + 1.5 * radius || c.x == p.x - 1.5 * radius)
    && (c.y == p.y + 1.5 * radius || c.y == p.y - 1.5 * radius)
  }

  /** Fragment `i` of four: x offset sign alternates with `i`, y offset sign with `i / 2`. */
  function Fragment(parent: AsteroidBody, size: AsteroidSize, radius: real, bounds: Arena.Bounds, i: nat, d: UnitDraw): (c: AsteroidSpawnEvent)
    requires bounds.Valid() && radius > 0.0 && ValidUnit(d) && i < 4
    ensures c.size == size && c.angvel == parent.angvel
    ensures Diagonal(c, parent.pos, radius)
    ensures c.x > parent.pos.x <==> i % 2 == 0
    ensures c.y > parent.pos.y <==> (i / 2) % 2 == 0
    ensures -FragmentSpeed(bounds.width, radius) <= c.vx < FragmentSpeed(bounds.width, radius)
    ensures -FragmentSpeed(bounds.height, radius) <= c.vy < FragmentSpeed(bounds.height, radius)
  {
    var offset := 1.5 * radius;
    AsteroidSpawnEvent(size,
      if i % 2 == 0 then parent.pos.x + offset else parent.pos.x - offset,
      if (i / 2) % 2 == 0 then parent.pos.y + offset else parent.pos.y - offset,
      Scaled(d.u, FragmentSpeed(bounds.width, radius)), Scaled(d.w, FragmentSpeed(bounds.height, radius)),
      parent.angvel)
  }

  /**
    The fragments of a destroyed asteroid: none for a Small one; otherwise
    exactly four of the next size, one at each of the four diagonal offsets,
    each spinning like its parent.
   */
  function Fragments(parent: AsteroidBody, bounds: Arena.Bounds, draws: seq<UnitDraw>): (r: seq<AsteroidSpawnEvent>)
    requires bounds.Valid() && ValidChildDraws(draws)
    ensures parent.size == Small <==> r == []
    ensures parent.size != Small ==> |r| == 4
    ensures forall c :: c in r ==> Rank(c.size) + 1 == Rank(parent.size) && c.angvel == parent.angvel
    ensures Split(parent.size).Some? ==> forall c :: c in r ==> Diagonal(c, parent.pos, Split(parent.size).value.1)
    ensures forall i, j :: 0 <= i < j < |r| ==> (r[i].x, r[i].y) != (r[j].x, r[j].y)
  {
    match Split(parent.size)
    case None => []
    case Some((size, radius)) =>
      var r := [Fragment(parent, size, radius, bounds, 0, draws[0]), Fragment(parent, size, radius, bounds, 1, draws[1]),
                Fragment(parent, size, radius, bounds, 2, draws[2]), Fragment(parent, size, radius, bounds, 3, draws[3])];
      assert forall c :: c in r ==> c == r[0] || c == r[1] || c == r[2] || c == r[3];
      r
  }

  /** Four distinct diagonal offsets are all four: every sign combination gets a fragment. */
  lemma FragmentsCoverAllDiagonals(parent: AsteroidBody, bounds: Arena.Bounds, draws: seq<UnitDraw>, sx: real, sy: real)
    requires bounds.Valid() && ValidChildDraws(draws) && parent.size != Small
    requires (sx == 1.0 || sx == -1.0) && (sy == 1.0 || sy == -1.0)
    ensures var r := Fragments(parent, bounds, draws); var radius := Split(parent.size).value.1;
      exists i :: 0 <= i < 4 && r[i].x == parent.pos.x + sx * 1.5 * radius && r[i].y == parent.pos.y + sy * 1.5 * radius
  {
    var r := Fragments(parent, bounds, draws);
    var i := (if sx == 1.0 then 0 else 1) + (if sy == 1.0 then 0 else 2);
    assert r[i].x == parent.pos.x + sx * 1.5 * Split(parent.size).value.1;
  }

  /** What the destruction system produces for a batch of laser contacts. */
  datatype Destruction = Destruction(arena: ArenaRes, explosions: seq<Explosion>, spawns: seq<AsteroidSpawnEvent>, despawned: seq<EntityId>)

  /** The lookups that `unwrap` in the source: a missing laser or asteroid aborts the game. */
  datatype DestructionError = MissingLaser(laser: EntityId) | MissingAsteroid(asteroid: EntityId)

  /** Every contact names a laser with a position and a live asteroid. */
  predicate AllKnown(events: seq<LaserAsteroidContact>, lasers: map<EntityId, Vec2>, asteroids: map<EntityId, AsteroidBody>) {
    forall i :: 0 <= i < |events| ==> events[i].laser in lasers && events[i].asteroid in asteroids
  }

  /** Points the contacts are worth, one asteroid each. */
  function Points(events: seq<LaserAsteroidContact>, asteroids: map<EntityId, AsteroidBody>): nat
    requires forall i :: 0 <= i < |events| ==> events[i].asteroid in asteroids
  {
    if |events| == 0 then 0
    else Score(asteroids[events[0].asteroid].size) + Points(events[1..], asteroids)
  }

  /** Number of fragments the contacts produce: four for each asteroid that is not Small. */
  function FragmentCount(events: seq<LaserAsteroidContact>, asteroids: map<EntityId, AsteroidBody>): nat
    requires forall i :: 0 <= i < |events| ==> events[i].asteroid in asteroids
  {
    if |events| == 0 then 0
    else (if asteroids[events[0].asteroid].size == Small then 0 else 4) + FragmentCount(events[1..], asteroids)
  }

  /** A sequence of sequences laid end to end, in order. */
  function Flatten<T>(parts: seq<seq<T>>): seq<T> {
    if |parts| == 0 then [] else parts[0] + Flatten(parts[1..])
  }

  lemma {:induction false} FlattenAppend<T>(a: seq<seq<T>>, b: seq<seq<T>>)
    ensures Flatten(a + b) == Flatten(a) + Flatten(b)
  {
    if |a| == 0 {
      assert a + b == b;
    } else {
      assert (a + b)[0] == a[0] && (a + b)[1..] == a[1..] + b;
      FlattenAppend(a[1..], b);
    }
  }

  /** Part `i` sits right after the parts before it. */
  lemma FlattenSlice<T>(parts: seq<seq<T>>, i: nat)
    requires i < |parts|
    ensures var start := |Flatten(parts[..i])|;
      start + |parts[i]| <= |Flatten(parts)| && Flatten(parts)[start..start + |parts[i]|] == parts[i]
  {
    assert parts == parts[..i] + ([parts[i]] + parts[i + 1..]);
    FlattenAppend(parts[..i], [parts[i]] + parts[i + 1..]);
    FlattenAppend([parts[i]], parts[i + 1..]);
    assert Flatten([parts[i]]) == parts[i] + Flatten([parts[i]][1..]);
    assert [parts[i]][1..] == [];
  }

  /** The fragments of each contact's asteroid, contact by contact. */
  function ChildParts(events: seq<LaserAsteroidContact>, asteroids: map<EntityId, AsteroidBody>,
                      bounds: Arena.Bounds, draws: seq<seq<UnitDraw>>): (p: seq<seq<AsteroidSpawnEvent>>)
    requires forall i :: 0 <= i < |events| ==> events[i].asteroid in asteroids
    requires bounds.Valid() && |draws| == |events|
    requires forall i :: 0 <= i < |draws| ==> ValidChildDraws(draws[i])
    ensures |p| == |events|
    ensures forall i :: 0 <= i < |events| ==> p[i] == Fragments(asteroids[events[i].asteroid], bounds, draws[i])
  {
    seq(|events|, i requires 0 <= i < |events| => Fragments(asteroids[events[i].asteroid], bounds, draws[i]))
  }

  /** The fragments of every destroyed asteroid, contact after contact. */
  function AllFragments(events: seq<LaserAsteroidContact>, asteroids: map<EntityId, AsteroidBody>,
                        bounds: Arena.Bounds, draws: seq<seq<UnitDraw>>): (r: seq<AsteroidSpawnEvent>)
    requires forall i :: 0 <= i < |events| ==> events[i].asteroid in asteroids
    requires bounds.Valid() && |draws| == |events|
    requires forall i :: 0 <= i < |draws| ==> ValidChildDraws(draws[i])
    ensures |r| == FragmentCount(events, asteroids)
  {
    if |events| == 0 then []
    else Fragments(asteroids[events[0].asteroid], bounds, draws[0]) + AllFragments(events[1..], asteroids, bounds, draws[1..])
  }

  /** The fragments of all contacts are the per-contact fragments laid end to end. */
  lemma {:induction false} AllFragmentsFlatten(events: seq<LaserAsteroidContact>, asteroids: map<EntityId, AsteroidBody>,
                                               bounds: Arena.Bounds, draws: seq<seq<UnitDraw>>)
    requires forall i :: 0 <= i < |events| ==> events[i].asteroid in asteroids
    requires bounds.Valid() && |draws| == |events|
    requires forall i :: 0 <= i < |draws| ==> ValidChildDraws(draws[i])
    ensures AllFragments(events, asteroids, bounds, draws) == Flatten(ChildParts(events, asteroids, bounds, draws))
  {
    if |events| > 0 {
      AllFragmentsFlatten(events[1..], asteroids, bounds, draws[1..]);
      assert ChildParts(events, asteroids, bounds, draws)[1..] == ChildParts(events[1..], asteroids, bounds, draws[1..]);
    }
  }

  /** The parts of the first `i` contacts are the first `i` parts. */
  lemma ChildPartsPrefix(events: seq<LaserAsteroidContact>, asteroids: map<EntityId, AsteroidBody>,
                         bounds: Arena.Bounds, draws: seq<seq<UnitDraw>>, i: nat)
    requires forall j :: 0 <= j < |events| ==> events[j].asteroid in asteroids
    requires bounds.Valid() && |draws| == |events|
    requires forall j :: 0 <= j < |draws| ==> ValidChildDraws(draws[j])
    requires i <= |events|
    ensures ChildParts(events[..i], asteroids, bounds, draws[..i]) == ChildParts(events, asteroids, bounds, draws)[..i]
  {
  }

  /**
    Contact `i` owns the slice of the spawns that starts right after the
    fragments of the earlier contacts: exactly the fragments of its own
    asteroid, drawn with its own draws.
   */
  lemma FragmentsOfContact(events: seq<LaserAsteroidContact>, asteroids: map<EntityId, AsteroidBody>,
                           bounds: Arena.Bounds, draws: seq<seq<UnitDraw>>, i: nat)
    requires forall j :: 0 <= j < |events| ==> events[j].asteroid in asteroids
    requires bounds.Valid() && |draws| == |events|
    requires forall j :: 0 <= j < |draws| ==> ValidChildDraws(draws[j])
    requires i < |events|
    ensures var all := AllFragments(events, asteroids, bounds, draws);
      var start := |AllFragments(events[..i], asteroids, bounds, draws[..i])|;
      var mine := Fragments(asteroids[events[i].asteroid], bounds, draws[i]);
      start + |mine| <= |all| && all[start..start + |mine|] == mine
  {
    var parts := ChildParts(events, asteroids, bounds, draws);
    AllFragmentsFlatten(events, asteroids, bounds, draws);
    AllFragmentsFlatten(events[..i], asteroids, bounds, draws[..i]);
    ChildPartsPrefix(events, asteroids, bounds, draws, i);
    FlattenSlice(parts, i);
  }

  /** One explosion per contact, where its laser is, in contact order. */
  function LaserExplosions(events: seq<LaserAsteroidContact>, lasers: map<EntityId, Vec2>): (r: seq<Explosion>)
    requires forall i :: 0 <= i < |events| ==> events[i].laser in lasers
    ensures |r| == |events|
    ensures forall i :: 0 <= i < |events| ==>
      r[i] == Explosion(LaserOnAsteroid, lasers[events[i].laser].x, lasers[events[i].laser].y)
  {
    if |events| == 0 then []
    else [Explosion(LaserOnAsteroid, lasers[events[0].laser].x, lasers[events[0].laser].y)] + LaserExplosions(events[1..], lasers)
  }

  /** Both entities of every contact, the laser first, in contact order. */
  function Despawns(events: seq<LaserAsteroidContact>): (r: seq<EntityId>)
    ensures |r| == 2 * |events|
    ensures forall i :: 0 <= i < |events| ==> r[2 * i] == events[i].laser && r[2 * i + 1] == events[i].asteroid
  {
    if |events| == 0 then [] else [events[0].laser, events[0].asteroid] + Despawns(events[1..])
  }

  /** Whether contact `e` names a laser with a position and a live asteroid. */
  predicate Known(e: LaserAsteroidContact, lasers: map<EntityId, Vec2>, asteroids: map<EntityId, AsteroidBody>) {
    e.laser in lasers && e.asteroid in asteroids
  }

  /** Contact `i` is the first whose lookup fails, and `err` names what its lookup missed: the laser is looked up first. */
  predicate FailsFirstAt(events: seq<LaserAsteroidContact>, lasers: map<EntityId, Vec2>, asteroids: map<EntityId, AsteroidBody>,
                         i: int, err: DestructionError) {
    && 0 <= i < |events| && AllKnown(events[..i], lasers, asteroids) && !Known(events[i], lasers, asteroids)
    && err == (if events[i].laser !in lasers then MissingLaser(events[i].laser) else MissingAsteroid(events[i].asteroid))
  }

  /**
    The first lookup that fails, in contact order: within a contact the
    laser is looked up before the asteroid.
   */
  function FirstMissing(events: seq<LaserAsteroidContact>, lasers: map<EntityId, Vec2>, asteroids: map<EntityId, AsteroidBody>)
    : (m: Option<DestructionError>)
    ensures m.None? <==> AllKnown(events, lasers, asteroids)
    ensures m.Some? ==> exists i :: FailsFirstAt(events, lasers, asteroids, i, m.value)
  {
    if |events| == 0 then None
    else if events[0].laser !in lasers then
      assert FailsFirstAt(events, lasers, asteroids, 0, MissingLaser(events[0].laser));
      Some(MissingLaser(events[0].laser))
    else if events[0].asteroid !in asteroids then
      assert FailsFirstAt(events, lasers, asteroids, 0, MissingAsteroid(events[0].asteroid));
      Some(MissingAsteroid(events[0].asteroid))
    else
      var m := FirstMissing(events[1..], lasers, asteroids);
      assert m.None? ==> AllKnown(events, lasers, asteroids) by {
        if m.None? {
          forall i | 0 <= i < |events| ensures Known(events[i], lasers, asteroids) {
            if i > 0 { assert events[i] == events[1..][i - 1]; }
          }
        }
      }
      assert m.Some? ==> exists i :: FailsFirstAt(events, lasers, asteroids, i, m.value) by {
        if m.Some? {
          var k :| FailsFirstAt(events[1..], lasers, asteroids, k, m.value);
          assert events[..k + 1] == [events[0]] + events[1..][..k];
          assert AllKnown(events[..k + 1], lasers, asteroids);
          assert FailsFirstAt(events, lasers, asteroids, k + 1, m.value);
        }
      }
      m
  }

  /** The destruction of a batch whose every lookup succeeds, contact by contact. */
  function Damage(arena: ArenaRes, events: seq<LaserAsteroidContact>, lasers: map<EntityId, Vec2>,
                  asteroids: map<EntityId, AsteroidBody>, bounds: Arena.Bounds, draws: seq<seq<UnitDraw>>)
    : (r: Destruction)
    requires AllKnown(events, lasers, asteroids)
    requires bounds.Valid() && |draws| == |events|
    requires forall i :: 0 <= i < |draws| ==> ValidChildDraws(draws[i])
    ensures r.arena.asteroidSpawnTimer == arena.asteroidSpawnTimer
    ensures r.arena.score == arena.score + Points(events, asteroids)
    ensures r.explosions == LaserExplosions(events, lasers)
    ensures r.spawns == AllFragments(events, asteroids, bounds, draws)
    ensures r.despawned == Despawns(events)
    decreases |events|
  {
    if |events| == 0 then Destruction(arena, [], [], [])
    else
      var e := events[0];
      var parent := asteroids[e.asteroid];
      var scored := arena.(score := arena.score + Score(parent.size));
      var rest := Damage(scored, events[1..], lasers, asteroids, bounds, draws[1..]);
      Destruction(rest.arena, [Explosion(LaserOnAsteroid, lasers[e.laser].x, lasers[e.laser].y)] + rest.explosions,
                  Fragments(parent, bounds, draws[0]) + rest.spawns, [e.laser, e.asteroid] + rest.despawned)
  }

  /**
    The destruction system for a batch of laser/asteroid contacts, in order.
    For each contact it scores the asteroid, asks for an explosion where the
    laser is, fragments the asteroid, and despawns both the laser and the
    asteroid. The entity lookups happen against the state at the start of
    the frame, since despawns only take effect after the system has run; the
    first failing lookup aborts the game.
   */
  function AsteroidDamage(arena: ArenaRes, events: seq<LaserAsteroidContact>, lasers: map<EntityId, Vec2>,
                          asteroids: map<EntityId, AsteroidBody>, bounds: Arena.Bounds, draws: seq<seq<UnitDraw>>)
    : (r: Result<Destruction, DestructionError>)
    requires bounds.Valid() && |draws| == |events|
    requires forall i :: 0 <= i < |draws| ==> ValidChildDraws(draws[i])
    ensures r.Success? <==> AllKnown(events, lasers, asteroids)
    ensures r.Failure? ==> exists i :: FailsFirstAt(events, lasers, asteroids, i, r.error)
    ensures r.Success? ==> r.value.arena.asteroidSpawnTimer == arena.asteroidSpawnTimer
    ensures r.Success? ==> r.value.arena.score == arena.score + Points(events, asteroids)
    ensures r.Success? ==> r.value.explosions == LaserExplosions(events, lasers)
    ensures r.Success? ==> r.value.spawns == AllFragments(events, asteroids, bounds, draws)
    ensures r.Success? ==> r.value.despawned == Despawns(events)
  {
    match FirstMissing(events, lasers, asteroids)
    case Some(err) => Failure(err)
    case None => Success(Damage(arena, events, lasers, asteroids, bounds, draws))
  }

  /** The score never goes down: the destruction system only adds points. */
  lemma ScoreNeverDecreases(arena: ArenaRes, events: seq<LaserAsteroidContact>, lasers: map<EntityId, Vec2>,
                            asteroids: map<EntityId, AsteroidBody>, bounds: Arena.Bounds, draws: seq<seq<UnitDraw>>)
    requires bounds.Valid() && |draws| == |events|
    requires forall i :: 0 <= i < |draws| ==> ValidChildDraws(draws[i])
    requires AllKnown(events, lasers, asteroids)
    ensures var r := AsteroidDamage(arena, events, lasers, asteroids, bounds, draws);
      r.Success? && r.value.arena.score >= arena.score + 10 * |events|
  {
    PointsAtLeast(events, asteroids);
  }

  lemma {:induction false} PointsAtLeast(events: seq<LaserAsteroidContact>, asteroids: map<EntityId, AsteroidBody>)
    requires forall i :: 0 <= i < |events| ==> events[i].asteroid in asteroids
    ensures Points(events, asteroids) >= 10 * |events|
  {
    if |events| > 0 {
      PointsAtLeast(events[1..], asteroids);
    }
  }

  /**
    A laser hitting a Big asteroid at the origin: 40 points, the laser and
    the asteroid despawned, and four Medium fragments at (+-30, +-30).
   */
  lemma BigAsteroidScenario(arena: ArenaRes, laser: EntityId, asteroid: EntityId, at: Vec2, bounds: Arena.Bounds, draws: seq<UnitDraw>)
    requires bounds.Valid() && ValidChildDraws(draws) && laser != asteroid
    ensures var r := AsteroidDamage(arena, [LaserAsteroidContact(laser, asteroid)], map[laser := at],
                                    map[asteroid := AsteroidBody(Big, Vec2(0.0, 0.0), 0.0)], bounds, [draws]);
      && r.Success?
      && r.value.arena.score == arena.score + 40
      && r.value.despawned == [laser, asteroid]
      && |r.value.spawns| == 4
      && forall c :: c in r.value.spawns ==> c.size == Medium && (c.x == 30.0 || c.x == -30.0) && (c.y == 30.0 || c.y == -30.0)
  {
    var events := [LaserAsteroidContact(laser, asteroid)];
    var asteroids := map[asteroid := AsteroidBody(Big, Vec2(0.0, 0.0), 0.0)];
    var r := AsteroidDamage(arena, events, map[laser := at], asteroids, bounds, [draws]);
    assert AllKnown(events, map[laser := at], asteroids);
    assert events[1..] == [];
    assert Points(events, asteroids) == 40;
    assert r.value.spawns == Fragments(asteroids[asteroid], bounds, draws);
  }
}

=== FILE: blink.dfy ===
/**
  The blinking of menu texts. Every menu revision attaches a repeating 0.5 s
  timer to a text and flips the text's visibility each time that timer
  completes a period; the latest revision adds an `enabled` switch.
 */
module Blink {
  import opened Timers

  const BlinkPeriod: real := 0.5

  /** A blinking text: its repeating timer and whether it is currently shown. */
  datatype Blinker = Blinker(timer: Timer, visible: bool)

  /** A blinker as the menus create it: a fresh 0.5 s repeating timer. */
  function NewBlinker(visible: bool): (b: Blinker)
    ensures b.timer.ValidRepeating() && b.timer.duration == BlinkPeriod
    ensures b.visible == visible
  {
    Blinker(Timer(0.0, BlinkPeriod), visible)
  }

  /** One frame of the blink system: tick the timer and flip visibility when it finishes. */
  function DrawBlink(b: Blinker, delta: real): (r: Blinker)
    requires b.timer.ValidRepeating() && delta >= 0.0
    ensures r.timer.ValidRepeating() && r.timer.duration == b.timer.duration
    ensures r.visible != b.visible <==> b.timer.elapsed + delta >= b.timer.duration
  {
    var (t, finished) := TickRepeating(b.timer, delta);
    Blinker(t, if finished then !b.visible else b.visible)
  }

  /** The latest revision's blink: a disabled blinker neither ticks nor changes visibility. */
  function MenuBlink(b: Blinker, enabled: bool, delta: real): (r: Blinker)
    requires b.timer.ValidRepeating() && delta >= 0.0
    ensures !enabled ==> r == b
    ensures enabled ==> r.timer.ValidRepeating()
    ensures enabled ==> (r.visible != b.visible <==> b.timer.elapsed + delta >= b.timer.duration)
  {
    if enabled then DrawBlink(b, delta) else b
  }

  /**
    Frames shorter than what is left of the period never make a text
    flicker: two frames that together stay below the remaining time leave
    the visibility as it was.
   */
  lemma {:induction false} NoFlipBeforePeriod(b: Blinker, d1: real, d2: real)
    requires b.timer.ValidRepeating() && d1 >= 0.0 && d2 >= 0.0
    requires d1 + d2 < b.timer.duration - b.timer.elapsed
    ensures DrawBlink(DrawBlink(b, d1), d2).visible == b.visible
  {
    var r1 := DrawBlink(b, d1);
    assert r1.visible == b.visible;
    assert r1.timer.elapsed == b.timer.elapsed + d1;
  }
}

=== FILE: components.dfy ===
/** Plain data shared by the gameplay systems: entity handles, vectors, explosion requests. */
module Components {

  /** An entity handle of the engine's entity store. */
  type EntityId = nat

  datatype Vec2 = Vec2(x: real, y: real)

  /** What kind of explosion effect a system asks the rendering side to play. */
  datatype ExplosionKind = ShipDead | ShipContact | LaserOnAsteroid

  /** A request to play an explosion effect at a point of the arena. */
  datatype Explosion = Explosion(kind: ExplosionKind, x: real, y: real)
}

=== FILE: contact.dfy ===
/**
  Contact classification: the physics engine reports pairs of entities that
  started touching, and the contact system turns each pair into typed
  ship/asteroid and laser/asteroid contact events according to which of the
  Ship, Laser and Asteroid markers each entity carries. More than one typed
  event in a frame aborts the game.
 */
module Contact {
  import opened Wrappers
  import opened Components
  import Asteroids

  /** Which gameplay markers an entity carries. Entities absent from the world map carry none. */
  datatype Tags = Tags(ship: bool, laser: bool, asteroid: bool)

  type World = map<EntityId, Tags>

  predicate IsShip(w: World, e: EntityId) { e in w && w[e].ship }
  predicate IsLaser(w: World, e: EntityId) { e in w && w[e].laser }
  predicate IsAsteroid(w: World, e: EntityId) { e in w && w[e].asteroid }

  /** A ship touched an asteroid. */
  datatype ShipAsteroidContact = ShipAsteroidContact(ship: EntityId, asteroid: EntityId)

  /** The two event streams the contact system writes, each in emission order. */
  datatype Contacts = Contacts(shipAsteroid: seq<ShipAsteroidContact>, laserAsteroid: seq<Asteroids.LaserAsteroidContact>) {
    function Count(): nat {
      |shipAsteroid| + |laserAsteroid|
    }

    /** This frame's events followed by those of `other`, stream by stream. */
    function Join(other: Contacts): Contacts {
      Contacts(shipAsteroid + other.shipAsteroid, laserAsteroid + other.laserAsteroid)
    }
  }

  /** A started collision between two entities, in the order the engine reports them. */
  datatype Collision = Collision(e1: EntityId, e2: EntityId)

  /** Whether `x` and `y` are the two entities of `c`, in either order. */
  predicate Between(x: EntityId, y: EntityId, c: Collision) {
    (x == c.e1 && y == c.e2) || (x == c.e2 && y == c.e1)
  }

  /**
    The typed events of one collision, tested in a fixed order: ship then
    asteroid, asteroid then ship, asteroid then laser, laser then asteroid.
    Every event names a real ship, laser or asteroid of the pair, and every
    matching role assignment yields its event.
   */
  function ClassifyPair(w: World, c: Collision): (r: Contacts)
    ensures forall s :: s in r.shipAsteroid ==>
      IsShip(w, s.ship) && IsAsteroid(w, s.asteroid) && Between(s.ship, s.asteroid, c)
    ensures forall l :: l in r.laserAsteroid ==>
      IsLaser(w, l.laser) && IsAsteroid(w, l.asteroid) && Between(l.laser, l.asteroid, c)
    ensures IsShip(w, c.e1) && IsAsteroid(w, c.e2) ==> ShipAsteroidContact(c.e1, c.e2) in r.shipAsteroid
    ensures IsShip(w, c.e2) && IsAsteroid(w, c.e1) ==> ShipAsteroidContact(c.e2, c.e1) in r.shipAsteroid
    ensures IsLaser(w, c.e2) && IsAsteroid(w, c.e1) ==> Asteroids.LaserAsteroidContact(c.e2, c.e1) in r.laserAsteroid
    ensures IsLaser(w, c.e1) && IsAsteroid(w, c.e2) ==> Asteroids.LaserAsteroidContact(c.e1, c.e2) in r.laserAsteroid
    ensures r.Count() <= 4
  {
    var sa1 := if IsShip(w, c.e1) && IsAsteroid(w, c.e2) then [ShipAsteroidContact(c.e1, c.e2)] else [];
    var sa2 := if IsShip(w, c.e2) && IsAsteroid(w, c.e1) then [ShipAsteroidContact(c.e2, c.e1)] else [];
    var la1 := if IsAsteroid(w, c.e1) && IsLaser(w, c.e2) then [Asteroids.LaserAsteroidContact(c.e2, c.e1)] else [];
    var la2 := if IsAsteroid(w, c.e2) && IsLaser(w, c.e1) then [Asteroids.LaserAsteroidContact(c.e1, c.e2)] else [];
    Contacts(sa1 + sa2, la1 + la2)
  }

  /** An entity that is exactly one of ship, laser or asteroid. */
  predicate Only(w: World, e: EntityId, t: Tags) {
    e in w && w[e] == t
  }

  const ShipOnly := Tags(true, false, false)
  const LaserOnly := Tags(false, true, false)
  const AsteroidOnly := Tags(false, false, true)

  /** The order in which the engine reports a ship/asteroid pair does not matter: one event, ship first. */
  lemma ShipAsteroidEitherOrder(w: World, ship: EntityId, asteroid: EntityId)
    requires Only(w, ship, ShipOnly) && Only(w, asteroid, AsteroidOnly)
    ensures ClassifyPair(w, Collision(ship, asteroid)) == Contacts([ShipAsteroidContact(ship, asteroid)], [])
    ensures ClassifyPair(w, Collision(asteroid, ship)) == Contacts([ShipAsteroidContact(ship, asteroid)], [])
  {
  }

  /** The same for a laser/asteroid pair: one event naming the laser and the asteroid. */
  lemma LaserAsteroidEitherOrder(w: World, laser: EntityId, asteroid: EntityId)
    requires Only(w, laser, LaserOnly) && Only(w, asteroid, AsteroidOnly)
    ensures ClassifyPair(w, Collision(laser, asteroid)) == Contacts([], [Asteroids.LaserAsteroidContact(laser, asteroid)])
    ensures ClassifyPair(w, Collision(asteroid, laser)) == Contacts([], [Asteroids.LaserAsteroidContact(laser, asteroid)])
  {
  }

  /**
    Pairs without an asteroid produce nothing: asteroids bouncing off each
    other, or a ship touching its own laser, are left to the physics.
   */
  lemma NoAsteroidNoEvent(w: World, c: Collision)
    requires !IsAsteroid(w, c.e1) && !IsAsteroid(w, c.e2)
    ensures ClassifyPair(w, c).Count() == 0
  {
  }

  /** Two asteroids touching produce nothing either, as long as neither is also a ship or a laser. */
  lemma AsteroidsBounce(w: World, a: EntityId, b: EntityId)
    requires Only(w, a, AsteroidOnly) && Only(w, b, AsteroidOnly)
    ensures ClassifyPair(w, Collision(a, b)).Count() == 0
  {
  }

  /** The events of a frame's collisions, in the order the collisions were reported. */
  function ContactEvents(w: World, cs: seq<Collision>): (r: Contacts)
    ensures r.Count() <= 4 * |cs|
  {
    if |cs| == 0 then Contacts([], [])
    else
      ClassifyPair(w, cs[0]).Join(ContactEvents(w, cs[1..]))
  }

  /** Splitting a frame's collisions anywhere splits its events at the same place. */
  lemma {:induction false} ContactEventsAppend(w: World, a: seq<Collision>, b: seq<Collision>)
    ensures var ea := ContactEvents(w, a); var eb := ContactEvents(w, b);
      ContactEvents(w, a + b) == ea.Join(eb)
  {
    if |a| == 0 {
      assert a + b == b;
    } else {
      var ab := a + b;
      assert ab[0] == a[0] && ab[1..] == a[1..] + b;
      ContactEventsAppend(w, a[1..], b);
      JoinAssoc(ClassifyPair(w, a[0]), ContactEvents(w, a[1..]), ContactEvents(w, b));
    }
  }

  /** Joining event streams is associative. */
  lemma JoinAssoc(x: Contacts, y: Contacts, z: Contacts)
    ensures x.Join(y.Join(z)) == x.Join(y).Join(z)
  {
    assert x.shipAsteroid + (y.shipAsteroid + z.shipAsteroid) == (x.shipAsteroid + y.shipAsteroid) + z.shipAsteroid;
    assert x.laserAsteroid + (y.laserAsteroid + z.laserAsteroid) == (x.laserAsteroid + y.laserAsteroid) + z.laserAsteroid;
  }

  /** Every reported event comes from one of the frame's collisions. */
  lemma {:induction false} EventsComeFromCollisions(w: World, cs: seq<Collision>)
    ensures forall s :: s in ContactEvents(w, cs).shipAsteroid ==>
      exists i :: 0 <= i < |cs| && Between(s.ship, s.asteroid, cs[i])
    ensures forall l :: l in ContactEvents(w, cs).laserAsteroid ==>
      exists i :: 0 <= i < |cs| && Between(l.laser, l.asteroid, cs[i])
  {
    if |cs| > 0 {
      EventsComeFromCollisions(w, cs[1..]);
      var first := ClassifyPair(w, cs[0]);
      forall s | s in ContactEvents(w, cs).shipAsteroid
        ensures exists i :: 0 <= i < |cs| && Between(s.ship, s.asteroid, cs[i])
      {
        if s in first.shipAsteroid {
          assert Between(s.ship, s.asteroid, cs[0]);
        } else {
          var i :| 0 <= i < |cs[1..]| && Between(s.ship, s.asteroid, cs[1..][i]);
          assert cs[1..][i] == cs[i + 1];
        }
      }
      forall l | l in ContactEvents(w, cs).laserAsteroid
        ensures exists i :: 0 <= i < |cs| && Between(l.laser, l.asteroid, cs[i])
      {
        if l in first.laserAsteroid {
          assert Between(l.laser, l.asteroid, cs[0]);
        } else {
          var i :| 0 <= i < |cs[1..]| && Between(l.laser, l.asteroid, cs[1..][i]);
          assert cs[1..][i] == cs[i + 1];
        }
      }
    }
  }

  /** The contact system aborts when a frame yields more than one typed event. */
  datatype ContactError = TooManyContacts(count: nat)

  /**
    One frame of the contact system. It succeeds, with the frame's events,
    exactly when they number at most one; otherwise it aborts with their count.
   */
  function ContactSystem(w: World, cs: seq<Collision>): (r: Result<Contacts, ContactError>)
    ensures r.Success? <==> ContactEvents(w, cs).Count() <= 1
    ensures r.Success? ==> r.value == ContactEvents(w, cs)
    ensures r.Failure? ==> r.error.count == ContactEvents(w, cs).Count() && r.error.count >= 2
  {
    var events := ContactEvents(w, cs);
    if events.Count() > 1 then Failure(TooManyContacts(events.Count())) else Success(events)
  }

  /** A frame with no collisions never aborts and reports nothing. */
  lemma QuietFrame(w: World)
    ensures ContactSystem(w, []) == Success(Contacts([], []))
  {
  }

  /**
    A frame in which the ship hits two asteroids at once aborts: each pair is
    one event, and two events are too many.
   */
  lemma TwoHitsAbort(w: World, ship: EntityId, a: EntityId, b: EntityId)
    requires Only(w, ship, ShipOnly) && Only(w, a, AsteroidOnly) && Only(w, b, AsteroidOnly)
    ensures ContactSystem(w, [Collision(ship, a), Collision(b, ship)]).Failure?
  {
    ContactEventsAppend(w, [Collision(ship, a)], [Collision(b, ship)]);
    ShipAsteroidEitherOrder(w, ship, a);
    ShipAsteroidEitherOrder(w, ship, b);
    assert [Collision(ship, a), Collision(b, ship)] == [Collision(ship, a)] + [Collision(b, ship)];
    assert [Collision(ship, a)][1..] == [];
    assert [Collision(b, ship)][1..] == [];
  }
}

=== FILE: counting.dfy ===
/** Counting the true entries of a sequence of flags (shown icons, highlighted buttons). */
module Counting {

  function CountTrue(v: seq<bool>): (n: nat)
    ensures n <= |v|
  {
    if |v| == 0 then 0 else CountTrue(v[..|v| - 1]) + (if v[|v| - 1] then 1 else 0)
  }

  /** Counting a sequence extended by one flag adds that flag. */
  lemma CountTrueSnoc(v: seq<bool>, b: bool)
    ensures CountTrue(v + [b]) == CountTrue(v) + (if b then 1 else 0)
  {
    assert (v + [b])[..|v|] == v;
  }
}

=== FILE: flow.dfy ===
/**
  The game flow of the menu revisions: an outer application state, the
  phase of a game nested inside it, the menus those states show and what
  each menu entry stands for. Input systems write "next state" requests,
  where the last request of a frame wins, and may ask the application to
  quit.
 */
module GameFlow {
  import opened Wrappers

  /** Outer state: asset loading, the main menu, the credits screen, a game. */
  datatype AppState = Setup | Menu | Credits | Game

  /** Phase of a game: being set up, running, paused, over. */
  datatype GameState = Setup | Running | Paused | Over

  /** What one call of an input system requests. `None`: nothing written. */
  datatype FlowOut = FlowOut(nextApp: Option<AppState>, nextGame: Option<GameState>, exit: bool)

  const Quiet := FlowOut(None, None, false)

  /** The state a menu is scoped to: it is torn down when that state is left. */
  datatype Scope = ForApp(app: AppState) | ForGame(game: GameState)

  /** A menu as spawned: title, whether the title blinks, the entries, the cursor and the scope. */
  datatype MenuLayout = MenuLayout(title: string, blink: bool, entries: seq<string>, selected: int, scope: Scope)

  const MainMenu := MenuLayout("Kataster", false, ["Play", "Credits", "Exit"], 0, ForApp(AppState.Menu))
  const GameOverMenu := MenuLayout("Game Over", false, ["Menu", "Exit"], 0, ForGame(GameState.Over))
  const PauseMenu := MenuLayout("Pause", true, ["Resume", "Menu", "Exit"], 0, ForGame(GameState.Paused))

  /** What choosing an entry is meant to do, going by its label. */
  function EntryEffect(entry: string): FlowOut {
    if entry == "Play" then FlowOut(Some(AppState.Game), None, false)
    else if entry == "Credits" then FlowOut(Some(AppState.Credits), None, false)
    else if entry == "Menu" then FlowOut(Some(AppState.Menu), None, false)
    else if entry == "Resume" then FlowOut(None, Some(GameState.Running), false)
    else if entry == "Exit" then FlowOut(None, None, true)
    else Quiet
  }

  /**
    The three menus start with the cursor on their first entry, every
    entry stands for some effect, only the pause title blinks, and each
    menu is scoped to the state that shows it.
   */
  lemma InitialMenus()
    ensures |MainMenu.entries| == 3 && |GameOverMenu.entries| == 2 && |PauseMenu.entries| == 3
    ensures forall m :: m in [MainMenu, GameOverMenu, PauseMenu] ==>
      && 0 <= m.selected < |m.entries|
      && m.selected == 0
      && (forall i :: 0 <= i < |m.entries| ==> EntryEffect(m.entries[i]) != Quiet)
      && (m.blink <==> m.scope == ForGame(GameState.Paused))
    ensures MainMenu.scope == ForApp(AppState.Menu) && GameOverMenu.scope == ForGame(GameState.Over)
  {
  }

  /** The screen: outer state together with the phase of the game. */
  datatype Screen = Screen(app: AppState, game: GameState)

  /** The screen once a frame's requests are applied. */
  function Next(s: Screen, o: FlowOut): Screen {
    Screen(o.nextApp.GetOr(s.app), o.nextGame.GetOr(s.game))
  }

  /**
    The menu-driven edges of the flow: start a game or open the credits
    from the main menu, go back from the credits, pause and resume a game,
    and leave a paused or finished game for the main menu.
   */
  predicate FlowEdge(from: Screen, to: Screen) {
    || (from.app == AppState.Menu && to.game == from.game && (to.app == AppState.Game || to.app == AppState.Credits))
    || (from.app == AppState.Credits && to == from.(app := AppState.Menu))
    || (from.app == AppState.Game && from.game == GameState.Running && to == from.(game := GameState.Paused))
    || (from.app == AppState.Game && from.game == GameState.Paused && to == from.(game := GameState.Running))
    || (from.app == AppState.Game && (from.game == GameState.Paused || from.game == GameState.Over) && to.app == AppState.Menu)
  }
}

=== FILE: hud.dfy ===
/**
  The heads-up display of the latest revision: one life icon per starting
  life, scoped to a game, and a system that shows each icon according to
  the life of the player's ship among the ships changed this frame.
 */
module Hud {
  import opened Counting
  import opened LifeIcons
  import GameFlow

  /** The player whose ship the HUD follows. */
  const HudPlayer: int := 1

  /** A ship as the life system sees it, when the ship changed this frame. */
  datatype ChangedShip = ChangedShip(playerId: int, life: nat)

  /** The icon thresholds 1 .. `startLife` the HUD creates, scoped to the `Game` outer state. */
  function HudSpawn(startLife: nat): (r: (seq<nat>, GameFlow.Scope))
    ensures |r.0| == startLife
    ensures forall i :: 0 <= i < startLife ==> r.0[i] == i + 1
    ensures r.1 == GameFlow.ForApp(GameFlow.AppState.Game)
  {
    (IconMins(startLife), GameFlow.ForApp(GameFlow.AppState.Game))
  }

  /**
    The life the HUD shows: that of the last changed ship of player 1, and
    0 when no ship of player 1 changed this frame.
   */
  function HudLife(changed: seq<ChangedShip>): (life: nat)
    ensures (forall i :: 0 <= i < |changed| ==> changed[i].playerId != HudPlayer) ==> life == 0
    ensures (exists i :: 0 <= i < |changed| && changed[i].playerId == HudPlayer) ==>
      exists i :: 0 <= i < |changed| && changed[i].playerId == HudPlayer && changed[i].life == life
        && forall j :: i < j < |changed| ==> changed[j].playerId != HudPlayer
  {
    if |changed| == 0 then 0
    else
      var last := changed[|changed| - 1];
      if last.playerId == HudPlayer then last.life
      else
        var init := changed[..|changed| - 1];
        assert forall i :: 0 <= i < |init| ==> init[i] == changed[i];
        HudLife(init)
  }

  /** The HUD's life system: an icon is shown exactly when the life shown reaches its threshold. */
  function HudLifeSystem(changed: seq<ChangedShip>, mins: seq<nat>): (v: seq<bool>)
    ensures |v| == |mins|
    ensures forall i :: 0 <= i < |mins| ==> (v[i] <==> HudLife(changed) >= mins[i])
  {
    Visibility(HudLife(changed), mins)
  }

  /** The HUD shows as many icons as the life shown, up to the number created. */
  lemma HudShowsLife(changed: seq<ChangedShip>, startLife: nat)
    ensures CountTrue(HudLifeSystem(changed, HudSpawn(startLife).0)) == Min(HudLife(changed), startLife)
  {
    VisibleCount(HudLife(changed), startLife);
  }

  /** In a frame where the player's ship did not change, every icon is hidden. */
  lemma UnchangedShipHidesIcons(changed: seq<ChangedShip>, startLife: nat)
    requires forall i :: 0 <= i < |changed| ==> changed[i].playerId != HudPlayer
    ensures CountTrue(HudLifeSystem(changed, HudSpawn(startLife).0)) == 0
  {
    HudShowsLife(changed, startLife);
  }
}

=== FILE: laser.dfy ===
/**
  Lasers: a laser is created for each spawn request with a 2 s one-shot
  lifetime, flies with the emitter's vertical velocity plus a muzzle
  velocity along the emitter's facing, and is despawned once its lifetime
  has run out.
 */
module Lasers {
  import opened Components
  import opened Timers

  const LaserLifetime: real := 2.0
  const MuzzleSpeed: real := 500.0

  /**
    A request to fire: where the emitter is, the unit vector of its facing
    (its rotation applied to the up axis), and its linear velocity.
   */
  datatype LaserSpawnEvent = LaserSpawnEvent(pos: Vec2, facing: Vec2, linvel: Vec2)

  /** A laser as created, scoped to the list of states `scope` names. */
  datatype NewLaser<S> = NewLaser(pos: Vec2, vel: Vec2, despawnTimer: Timer, scope: seq<S>)

  /** A live laser as the timeout system sees it. */
  datatype LiveLaser = LiveLaser(id: EntityId, despawnTimer: Timer)

  /**
    The velocity a laser inherits: the componentwise product with the up
    axis keeps only the emitter's vertical velocity; the muzzle term adds
    500 units along the facing.
   */
  function LaserVelocity(e: LaserSpawnEvent): (v: Vec2)
    ensures v.x == MuzzleSpeed * e.facing.x
    ensures v.y - e.linvel.y == MuzzleSpeed * e.facing.y
  {
    Vec2(0.0 * e.linvel.x + MuzzleSpeed * e.facing.x, 1.0 * e.linvel.y + MuzzleSpeed * e.facing.y)
  }

  /** The emitter's horizontal velocity never reaches the laser. */
  lemma HorizontalVelocityIgnored(e: LaserSpawnEvent, vx: real)
    ensures LaserVelocity(e.(linvel := Vec2(vx, e.linvel.y))) == LaserVelocity(e)
  {
  }

  /**
    The spawn system: exactly one laser per request, in request order, at
    the emitter's position, with a fresh 2 s lifetime, scoped to every game
    state (`anyGameState`).
   */
  function SpawnLaser<S>(events: seq<LaserSpawnEvent>, anyGameState: seq<S>): (r: seq<NewLaser<S>>)
    ensures |r| == |events|
    ensures forall i :: 0 <= i < |events| ==>
      && r[i].pos == events[i].pos
      && r[i].vel == LaserVelocity(events[i])
      && r[i].despawnTimer.Valid() && !r[i].despawnTimer.Finished()
      && r[i].despawnTimer.duration == LaserLifetime
      && r[i].scope == anyGameState
  {
    seq(|events|, i requires 0 <= i < |events| =>
      NewLaser(events[i].pos, LaserVelocity(events[i]), FromSeconds(LaserLifetime), anyGameState))
  }

  /** Whether a laser's lifetime has run out. */
  predicate Expired(l: LiveLaser) {
    l.despawnTimer.Finished()
  }

  /** The handles of the expired lasers, in order: the reference the timeout system is checked against. */
  function ExpiredIds(ls: seq<LiveLaser>): (ids: seq<EntityId>)
    ensures |ids| <= |ls|
  {
    if |ls| == 0 then []
    else ExpiredIds(ls[..|ls| - 1]) + (if Expired(ls[|ls| - 1]) then [ls[|ls| - 1].id] else [])
  }

  /** A handle is reported exactly when some expired laser carries it. */
  lemma {:induction false} ExpiredIdsMembership(ls: seq<LiveLaser>, id: EntityId)
    ensures id in ExpiredIds(ls) <==> exists i :: 0 <= i < |ls| && ls[i].id == id && Expired(ls[i])
  {
    if |ls| > 0 {
      var init := ls[..|ls| - 1];
      ExpiredIdsMembership(init, id);
      if exists i :: 0 <= i < |init| && init[i].id == id && Expired(init[i]) {
        var i :| 0 <= i < |init| && init[i].id == id && Expired(init[i]);
        assert ls[i] == init[i];
      }
      if exists i :: 0 <= i < |ls| && ls[i].id == id && Expired(ls[i]) {
        var i :| 0 <= i < |ls| && ls[i].id == id && Expired(ls[i]);
        if i < |init| {
          assert init[i] == ls[i];
        }
      }
    }
  }

  /**
    One frame of the timeout system: every laser's timer advances by
    `delta`; the lasers whose timer is then finished are despawned, and the
    others are left as they are apart from their timer.
   */
  method LaserTimeout(ls: seq<LiveLaser>, delta: real) returns (out: seq<LiveLaser>, despawned: seq<EntityId>)
    requires delta >= 0.0
    requires forall i :: 0 <= i < |ls| ==> ls[i].despawnTimer.Valid()
    ensures |out| == |ls|
    ensures forall i :: 0 <= i < |ls| ==>
      && out[i].id == ls[i].id
      && out[i].despawnTimer.Valid()
      && out[i].despawnTimer.duration == ls[i].despawnTimer.duration
      && (Expired(out[i]) <==> ls[i].despawnTimer.elapsed + delta >= ls[i].despawnTimer.duration)
      && (!Expired(out[i]) ==> out[i].despawnTimer.elapsed == ls[i].despawnTimer.elapsed + delta)
    ensures despawned == ExpiredIds(out)
  {
    out := [];
    despawned := [];
    var i := 0;
    while i < |ls|
      invariant 0 <= i <= |ls|
      invariant |out| == i
      invariant forall k :: 0 <= k < i ==>
        && out[k].id == ls[k].id
        && out[k].despawnTimer.Valid()
        && out[k].despawnTimer.duration == ls[k].despawnTimer.duration
        && (Expired(out[k]) <==> ls[k].despawnTimer.elapsed + delta >= ls[k].despawnTimer.duration)
        && (!Expired(out[k]) ==> out[k].despawnTimer.elapsed == ls[k].despawnTimer.elapsed + delta)
      invariant despawned == ExpiredIds(out)
    {
      var l := LiveLaser(ls[i].id, Tick(ls[i].despawnTimer, delta));
      assert (out + [l])[..|out|] == out;
      out := out + [l];
      if Expired(l) {
        despawned := despawned + [l.id];
      }
      i := i + 1;
    }
  }

  /** A laser's lifetime over several frames: the timer after ticking by each frame's delta in turn. */
  function Age(t: Timer, deltas: seq<real>): (r: Timer)
    requires t.Valid() && forall i :: 0 <= i < |deltas| ==> deltas[i] >= 0.0
    ensures r.Valid() && r.duration == t.duration
    decreases |deltas|
  {
    if |deltas| == 0 then t else Age(Tick(t, deltas[0]), deltas[1..])
  }

  function Sum(deltas: seq<real>): real {
    if |deltas| == 0 then 0.0 else deltas[0] + Sum(deltas[1..])
  }

  /** Ageing frame by frame is ageing once by the total time. */
  lemma {:induction false} AgeIsTickBySum(t: Timer, deltas: seq<real>)
    requires t.Valid() && forall i :: 0 <= i < |deltas| ==> deltas[i] >= 0.0
    ensures Sum(deltas) >= 0.0
    ensures Age(t, deltas) == Tick(t, Sum(deltas))
    decreases |deltas|
  {
    if |deltas| > 0 {
      AgeIsTickBySum(Tick(t, deltas[0]), deltas[1..]);
      TickAdds(t, deltas[0], Sum(deltas[1..]));
    }
  }

  /**
    A laser lives exactly as long as the frames sum to less than two
    seconds: after any sequence of frames it has expired exactly when their
    total reaches its 2 s lifetime.
   */
  lemma LaserLifetimeExact(deltas: seq<real>)
    requires forall i :: 0 <= i < |deltas| ==> deltas[i] >= 0.0
    ensures Age(FromSeconds(LaserLifetime), deltas).Finished() <==> Sum(deltas) >= LaserLifetime
  {
    AgeIsTickBySum(FromSeconds(LaserLifetime), deltas);
  }
}

=== FILE: life_icons.dfy ===
/**
  Life icons, shared by the in-game UI and the HUD: one icon per life the
  ship starts with, the icon with threshold `min` shown exactly when the
  life left is at least `min`.
 */
module LifeIcons {
  import opened Counting

  /** The thresholds of the icons created for `n` starting lives: 1, 2, ..., n. */
  function IconMins(n: nat): (mins: seq<nat>)
    ensures |mins| == n
    ensures forall i :: 0 <= i < n ==> mins[i] == i + 1
  {
    seq(n, i => i + 1)
  }

  /** Which icons are shown for the given life. */
  function Visibility(life: nat, mins: seq<nat>): (v: seq<bool>)
    ensures |v| == |mins|
    ensures forall i :: 0 <= i < |mins| ==> (v[i] <==> life >= mins[i])
  {
    seq(|mins|, i requires 0 <= i < |mins| => life >= mins[i])
  }

  function Min(a: nat, b: nat): nat {
    if a < b then a else b
  }

  /** The icons shown are exactly as many as the lives left, up to the number of icons. */
  lemma {:induction false} VisibleCount(life: nat, n: nat)
    ensures CountTrue(Visibility(life, IconMins(n))) == Min(life, n)
  {
    if n > 0 {
      var v := Visibility(life, IconMins(n));
      assert v[..n - 1] == Visibility(life, IconMins(n - 1));
      VisibleCount(life, n - 1);
    }
  }

  /** The icons shown always form a prefix: no gap ever opens in the row of lives. */
  lemma ShownIconsArePrefix(life: nat, n: nat, i: nat, j: nat)
    requires j < i < n
    requires Visibility(life, IconMins(n))[i]
    ensures Visibility(life, IconMins(n))[j]
  {
  }

  /** With no life left every icon is hidden. */
  lemma NoLifeNoIcon(n: nat)
    ensures forall i :: 0 <= i < n ==> !Visibility(0, IconMins(n))[i]
  {
  }
}

=== FILE: menu_cursor.dfy ===
/**
  The menu cursor: MenuUp and MenuDown move the selected entry cyclically
  (Euclidean remainder by the number of entries, which aborts on an empty
  menu), and whenever the menu changed the buttons are recoloured so that
  exactly the button whose id is the selection is highlighted.
 */
module MenuCursor {
  import opened Wrappers
  import opened Counting

  /** Taking the Euclidean remainder by zero entries aborts. */
  datatype CursorError = EmptyMenu

  /** The net move of one frame: Down counts +1, Up counts -1. */
  function Shift(up: bool, down: bool): int {
    (if down then 1 else 0) - (if up then 1 else 0)
  }

  /** One move by `delta`, reduced by the Euclidean remainder modulo `n`. */
  function Move(selected: int, delta: int, n: nat): (r: Result<int, CursorError>)
    ensures r.Failure? <==> n == 0
    ensures r.Success? ==> 0 <= r.value < n && (r.value - (selected + delta)) % n == 0
  {
    if n == 0 then Failure(EmptyMenu)
    else
      ModSelf(selected + delta, n);
      Success((selected + delta) % n)
  }

  lemma ModSelf(x: int, n: nat)
    requires n > 0
    ensures (x % n - x) % n == 0
  {
    var q := x / n;
    assert x == q * n + x % n;
    assert x % n - x == (-q) * n;
    MulMod(-q, n);
  }

  lemma MulMod(k: int, n: nat)
    requires n > 0
    ensures (k * n) % n == 0
  {
    ModUnique(k * n, n, k, 0);
  }

  /** The Euclidean remainder is the one remainder in range. */
  lemma ModUnique(x: int, n: nat, q: int, r: int)
    requires n > 0 && 0 <= r < n && x == q * n + r
    ensures x % n == r
  {
    var k := q - x / n;
    assert k * n == x % n - r by {
      assert x == (x / n) * n + x % n;
      assert q * n - (x / n) * n == k * n;
    }
    if k >= 1 {
      MulAtLeast(k, n);
    } else if k <= -1 {
      MulAtLeast(-k, n);
    }
  }

  lemma MulAtLeast(k: int, n: nat)
    requires k >= 1
    ensures k * n >= n
  {
    assert k * n == (k - 1) * n + n;
  }

  /**
    One frame of the cursor: Up is applied first, then Down. Without a
    press nothing changes; with a press on an empty menu the frame
    aborts; otherwise the new selection is the one entry of the menu that
    is congruent to the old selection moved by the net shift.
   */
  function Cycle(selected: int, n: nat, up: bool, down: bool): (r: Result<int, CursorError>)
    ensures r.Failure? <==> (up || down) && n == 0
    ensures !up && !down ==> r == Success(selected)
    ensures r.Success? && (up || down) ==> 0 <= r.value < n && (r.value - (selected + Shift(up, down))) % n == 0
  {
    var afterUp := if up then Move(selected, -1, n) else Success(selected);
    match afterUp
    case Failure(e) => Failure(e)
    case Success(s) =>
      if down then
        var r := Move(s, 1, n);
        assert up && r.Success? ==> (r.value - selected) % n == 0 by {
          if up && r.Success? { CongruenceChains(selected, s, r.value, n); }
        }
        r
      else afterUp
  }

  /** Two moves of -1 and +1 add up to the net shift 0. */
  lemma CongruenceChains(x: int, s: int, r: int, n: nat)
    requires n > 0
    requires (s - (x - 1)) % n == 0 && (r - (s + 1)) % n == 0
    ensures (r - x) % n == 0
  {
    var a := (s - (x - 1)) / n;
    var b := (r - (s + 1)) / n;
    assert s - (x - 1) == a * n;
    assert r - (s + 1) == b * n;
    assert r - x == (a + b) * n;
    MulMod(a + b, n);
  }

  /** A residue in range that is congruent to an in-range value is that value. */
  lemma {:induction false} UniqueResidue(r: int, s: int, n: nat)
    requires n > 0 && 0 <= r < n && 0 <= s < n && (r - s) % n == 0
    ensures r == s
  {
    var d := r - s;
    assert -(n as int) < d < n;
  }

  /** Up followed by Down in a later frame puts the cursor back where it was. */
  lemma {:induction false} UpThenDown(s: int, n: nat)
    requires 0 <= s < n
    ensures Cycle(s, n, true, false).Success?
    ensures Cycle(Cycle(s, n, true, false).value, n, false, true) == Success(s)
  {
    var u := Cycle(s, n, true, false).value;
    var d := Cycle(u, n, false, true).value;
    CongruenceChains(s, u, d, n);
    UniqueResidue(d, s, n);
  }

  /** Up and Down in the same frame cancel. */
  lemma {:induction false} UpAndDownCancel(s: int, n: nat)
    requires 0 <= s < n
    ensures Cycle(s, n, true, true) == Success(s)
  {
    UniqueResidue(Cycle(s, n, true, true).value, s, n);
  }

  /** Down from the last entry wraps to the first, Up from the first wraps to the last. */
  lemma {:induction false} CursorWraps(n: nat)
    requires n > 0
    ensures Cycle(n - 1, n, false, true) == Success(0)
    ensures Cycle(0, n, true, false) == Success(n - 1)
  {
    UniqueResidue(Cycle(n - 1, n, false, true).value, 0, n);
    assert (n - 1 - (0 - 1)) % n == 0 by { MulMod(1, n); }
    UniqueResidue(Cycle(0, n, true, false).value, n - 1, n);
  }

  /** The ids of the buttons of a menu with `n` entries: 0, 1, ..., n - 1. */
  function ButtonIds(n: nat): (ids: seq<int>)
    ensures |ids| == n && forall i :: 0 <= i < n ==> ids[i] == i
  {
    seq(n, i => i)
  }

  /** Which buttons get the selected colours: exactly those whose id is the selection. */
  function Highlights(buttons: seq<int>, selected: int): (v: seq<bool>)
    ensures |v| == |buttons|
    ensures forall i :: 0 <= i < |buttons| ==> (v[i] <==> buttons[i] == selected)
  {
    seq(|buttons|, i requires 0 <= i < |buttons| => buttons[i] == selected)
  }

  /** Among a menu's buttons exactly one is highlighted when the selection is in range, none otherwise. */
  lemma {:induction false} ExactlyOneHighlighted(n: nat, selected: int)
    ensures CountTrue(Highlights(ButtonIds(n), selected)) == (if 0 <= selected < n then 1 else 0)
  {
    if n > 0 {
      var v := Highlights(ButtonIds(n), selected);
      assert v[..n - 1] == Highlights(ButtonIds(n - 1), selected);
      ExactlyOneHighlighted(n - 1, selected);
    }
  }

  /** A menu's cursor: its entries and the selected id. */
  datatype Cursor = Cursor(entries: seq<string>, selected: int)

  /** The cursor after a frame, and the new highlight of each button if they were recoloured. */
  datatype Selection = Selection(cursor: Cursor, highlights: Option<seq<bool>>)

  /**
    The selection system of the revision with a single menu resource.
    Writing the selection marks the menu changed even if the value is the
    same, and so does the menu's creation (`inserted`); a changed menu
    recolours every button.
   */
  function MenuSelection(c: Cursor, up: bool, down: bool, inserted: bool, buttons: seq<int>): (r: Result<Selection, CursorError>)
    ensures r.Failure? <==> (up || down) && |c.entries| == 0
    ensures r.Success? ==> r.value.cursor.entries == c.entries
    ensures r.Success? && !up && !down ==> r.value.cursor == c
    ensures r.Success? && (up || down) ==>
      && 0 <= r.value.cursor.selected < |c.entries|
      && (r.value.cursor.selected - (c.selected + Shift(up, down))) % |c.entries| == 0
    ensures r.Success? ==> (r.value.highlights.Some? <==> up || down || inserted)
    ensures r.Success? && r.value.highlights.Some? ==>
      && |r.value.highlights.value| == |buttons|
      && forall i :: 0 <= i < |buttons| ==> (r.value.highlights.value[i] <==> buttons[i] == r.value.cursor.selected)
  {
    match Cycle(c.selected, |c.entries|, up, down)
    case Failure(e) => Failure(e)
    case Success(s) =>
      var c' := c.(selected := s);
      Success(Selection(c', if up || down || inserted then Some(Highlights(buttons, s)) else None))
  }

  /** Before any menu is spawned the resource has no entries, and a cursor key aborts the game. */
  lemma DefaultMenuAborts(down: bool, inserted: bool, buttons: seq<int>)
    ensures MenuSelection(Cursor([], 0), true, down, inserted, buttons) == Failure(EmptyMenu)
  {
  }

  /**
    The selection system of the revision with menu components: it acts
    only when exactly one menu exists, and then does what the single
    resource revision does to that menu.
   */
  function HandlerSelection(menus: seq<Cursor>, up: bool, down: bool, inserted: bool, buttons: seq<int>)
    : (r: Result<(seq<Cursor>, Option<seq<bool>>), CursorError>)
    ensures |menus| != 1 ==> r == Success((menus, None))
    ensures |menus| == 1 ==> (r.Success? <==> MenuSelection(menus[0], up, down, inserted, buttons).Success?)
    ensures |menus| == 1 && r.Success? ==>
      var s := MenuSelection(menus[0], up, down, inserted, buttons).value;
      r.value == ([s.cursor], s.highlights)
  {
    if |menus| != 1 then Success((menus, None))
    else
      match MenuSelection(menus[0], up, down, inserted, buttons)
      case Failure(e) => Failure(e)
      case Success(s) => Success(([s.cursor], s.highlights))
  }

  /**
    With a single menu whose buttons carry the ids 0 .. n - 1 and whose
    selection is in range, the selection stays in range and a recolouring
    highlights exactly one button.
   */
  lemma {:induction false} HandlerHighlightsOne(m: Cursor, up: bool, down: bool, inserted: bool)
    requires 0 <= m.selected < |m.entries|
    ensures HandlerSelection([m], up, down, inserted, ButtonIds(|m.entries|)).Success?
    ensures var r := HandlerSelection([m], up, down, inserted, ButtonIds(|m.entries|)).value;
      && 0 <= r.0[0].selected < |m.entries|
      && (r.1.Some? ==> CountTrue(r.1.value) == 1)
  {
    var r := HandlerSelection([m], up, down, inserted, ButtonIds(|m.entries|)).value;
    ExactlyOneHighlighted(|m.entries|, r.0[0].selected);
  }
}

=== FILE: menu_flow.dfy ===
/**
  The menu input state machine of the two-level-state revision whose state
  changes are "next state" requests where the last request of a frame wins.
  The system reads the current outer state and game phase, which stay fixed
  for the whole call, and writes next-state requests, the physics switch
  and the quit request.
 */
module MenuFlow {
  import opened Wrappers
  import opened States

  /** What the player sees: the outer state together with the game phase. */
  datatype Screen = Screen(app: AppState, game: AppGameState)

  /** The game phase is `Invalid` exactly on the start screen. */
  predicate ValidScreen(s: Screen) {
    s.app == StartMenu <==> s.game == Invalid
  }

  /** Menu actions just pressed this frame. */
  datatype MenuActions = MenuActions(accept: bool, pauseUnpause: bool, exitToMenu: bool, quit: bool)

  /** What a call requests: next outer state, next phase, physics on or off, quitting. `None`: not written. */
  datatype FlowOutput = FlowOutput(nextApp: Option<AppState>, nextGame: Option<AppGameState>, physics: Option<bool>, exit: bool)

  const NoOutput := FlowOutput(None, None, None, false)

  /** The screen once the frame's requests are applied. */
  function Next(s: Screen, o: FlowOutput): Screen {
    Screen(o.nextApp.GetOr(s.app), o.nextGame.GetOr(s.game))
  }

  /** Whether physics runs after the frame, given whether it ran before. */
  function NextPhysics(physics: bool, o: FlowOutput): bool {
    o.physics.GetOr(physics)
  }

  /**
    The menu-driven edges of the game flow: start a game from the start
    screen, leave a game for the start screen, pause a running game and
    resume a paused one.
   */
  predicate MenuEdge(from: Screen, to: Screen) {
    || (from.app == StartMenu && to == Screen(AppState.Game, AppGameState.Game))
    || (from.app == AppState.Game && to == Screen(StartMenu, Invalid))
    || (from == Screen(AppState.Game, AppGameState.Game) && to == Screen(AppState.Game, Pause))
    || (from == Screen(AppState.Game, Pause) && to == Screen(AppState.Game, AppGameState.Game))
  }

  /** Physics runs everywhere except in a paused game. */
  predicate PhysicsConsistent(s: Screen, physics: bool) {
    physics <==> s != Screen(AppState.Game, Pause)
  }

  /**
    The menu input system as written: each branch is judged on the current
    screen and writes its requests in turn, a later request overwriting an
    earlier one.
   */
  function MenuInputAsWritten(s: Screen, a: MenuActions): (r: FlowOutput)
    ensures r.exit <==> a.quit && (s.app == StartMenu || s == Screen(AppState.Game, GameOver))
    ensures s.app == StartMenu ==>
      r == FlowOutput(if a.accept then Some(AppState.Game) else None, if a.accept then Some(AppGameState.Game) else None, None, a.quit)
    ensures s.app != StartMenu && a.exitToMenu ==> r.nextApp == Some(StartMenu)
    ensures r.physics == Some(false) ==> s == Screen(AppState.Game, AppGameState.Game) && a.pauseUnpause
    ensures s.app == AppState.Game ==>
      && (s.game == AppGameState.Game && a.pauseUnpause ==> r.nextGame == Some(Pause) && r.physics == Some(false))
      && (s.game == Pause && a.pauseUnpause ==> r.nextGame == Some(AppGameState.Game) && r.physics == Some(true))
    ensures s.app == AppState.Game && a.exitToMenu ==>
      && r.nextApp == Some(StartMenu)
      && (!(a.pauseUnpause && (s.game == AppGameState.Game || s.game == Pause)) ==> r.nextGame == Some(Invalid) && r.physics == Some(true))
    ensures s.app == AppState.Game && !a.exitToMenu ==>
      && (s.game == GameOver && a.accept ==> r.nextApp == Some(StartMenu) && r.nextGame == Some(Invalid) && r.physics.None?)
      && (!(a.pauseUnpause && (s.game == AppGameState.Game || s.game == Pause)) && !(s.game == GameOver && a.accept) ==>
            r.nextApp.None? && r.nextGame.None? && r.physics.None?)
      && (a.pauseUnpause && (s.game == AppGameState.Game || s.game == Pause) ==> r.nextApp.None?)
  {
    var o := if s.app != StartMenu && a.exitToMenu
      then NoOutput.(nextApp := Some(StartMenu), nextGame := Some(Invalid), physics := Some(true))
      else NoOutput;
    match s.app
    case Game =>
      if s.game == AppGameState.Game then
        if a.pauseUnpause then o.(nextGame := Some(Pause), physics := Some(false)) else o
      else if s.game == Pause then
        if a.pauseUnpause then o.(nextGame := Some(AppGameState.Game), physics := Some(true)) else o
      else if s.game == GameOver then
        var o := if a.accept then o.(nextApp := Some(StartMenu), nextGame := Some(Invalid)) else o;
        if a.quit then o.(exit := true) else o
      else o
    case StartMenu =>
      var o := if a.accept then o.(nextApp := Some(AppState.Game), nextGame := Some(AppGameState.Game)) else o;
      if a.quit then o.(exit := true) else o
  }

  /**
    Exiting to the menu while pausing or resuming, as written: the pause
    branch overwrites the phase of the exit request. From a running game the
    start screen is entered with the `Pause` phase and physics switched off,
    and the next Accept then starts a game whose physics stays off. From a
    paused game the start screen is entered with the `Game` phase.
   */
  lemma ExitWhilePausingAsWritten()
    ensures var s := Screen(AppState.Game, AppGameState.Game);
      var o := MenuInputAsWritten(s, MenuActions(false, true, true, false));
      && o == FlowOutput(Some(StartMenu), Some(Pause), Some(false), false)
      && Next(s, o) == Screen(StartMenu, Pause) && !ValidScreen(Next(s, o))
      && PhysicsConsistent(s, true) && !NextPhysics(true, o)
      && var o2 := MenuInputAsWritten(Next(s, o), MenuActions(true, false, false, false));
         Next(Next(s, o), o2) == Screen(AppState.Game, AppGameState.Game)
         && !PhysicsConsistent(Next(Next(s, o), o2), NextPhysics(NextPhysics(true, o), o2))
    ensures var s := Screen(AppState.Game, Pause);
      var o := MenuInputAsWritten(s, MenuActions(false, true, true, false));
      && o == FlowOutput(Some(StartMenu), Some(AppGameState.Game), Some(true), false)
      && Next(s, o) == Screen(StartMenu, AppGameState.Game) && !ValidScreen(Next(s, o))
  {
  }

  /**
    The menu input system with exiting to the menu taking precedence over
    the other requests of the frame (quitting is still honoured). Every
    call either stays put or follows a menu edge of the game flow.
   */
  function MenuInput(s: Screen, a: MenuActions): (r: FlowOutput)
    ensures ValidScreen(s) ==> ValidScreen(Next(s, r))
    ensures Next(s, r) == s || MenuEdge(s, Next(s, r))
    ensures r.exit <==> a.quit && (s.app == StartMenu || s == Screen(AppState.Game, GameOver))
    ensures s.app != StartMenu && a.exitToMenu ==> r.nextApp == Some(StartMenu) && r.nextGame == Some(Invalid) && r.physics == Some(true)
    ensures r.physics == Some(false) ==> s == Screen(AppState.Game, AppGameState.Game) && a.pauseUnpause
  {
    if s.app != StartMenu && a.exitToMenu then
      FlowOutput(Some(StartMenu), Some(Invalid), Some(true), a.quit && s.game == GameOver)
    else MenuInputAsWritten(s, a)
  }

  /** The corrected system differs from the code only when exiting to the menu is combined with pausing or accepting. */
  lemma MenuInputAgrees(s: Screen, a: MenuActions)
    requires !(s.app != StartMenu && a.exitToMenu && (a.pauseUnpause || a.accept))
    ensures MenuInput(s, a) == MenuInputAsWritten(s, a)
  {
  }

  /** The corrected system keeps physics running exactly outside a paused game. */
  lemma {:induction false} MenuInputKeepsPhysicsConsistent(s: Screen, physics: bool, a: MenuActions)
    requires ValidScreen(s) && PhysicsConsistent(s, physics)
    ensures PhysicsConsistent(Next(s, MenuInput(s, a)), NextPhysics(physics, MenuInput(s, a)))
  {
    var o := MenuInput(s, a);
    if !(s.app != StartMenu && a.exitToMenu) {
      assert o == MenuInputAsWritten(s, a);
    }
  }

  /** Pause and resume are judged on the current phase, so one call never does both: pressing twice is needed. */
  lemma PauseThenResume(a: MenuActions)
    requires a == MenuActions(false, true, false, false)
    ensures var s := Screen(AppState.Game, AppGameState.Game);
      && Next(s, MenuInput(s, a)) == Screen(AppState.Game, Pause)
      && Next(Next(s, MenuInput(s, a)), MenuInput(Next(s, MenuInput(s, a)), a)) == s
  {
  }
}

=== FILE: menu_systems.dfy ===
/**
  The menu input systems of the revisions with a `Credits` screen: the
  main-menu system (Accept on the main menu and, in the latest revision,
  on the credits screen) and the in-game system (PauseUnpause, and Accept
  on the pause and game-over menus). Every branch is judged on the
  current state, which a call never changes.
 */
module MenuSystems {
  import opened Wrappers
  import opened GameFlow

  /** Menu actions just pressed this frame. */
  datatype MenuPress = MenuPress(accept: bool, pauseUnpause: bool)

  /**
    The main-menu system of the single menu resource revision: Accept on
    the main menu starts a game on the first entry and quits on any other.
   */
  function MainMenuAccept(app: AppState, accept: bool, selected: int): (r: FlowOut)
    ensures r.nextGame.None?
    ensures r.nextApp.Some? ==> r.nextApp == Some(AppState.Game)
    ensures r.nextApp.Some? <==> app == AppState.Menu && accept && selected == 0
    ensures r.exit <==> app == AppState.Menu && accept && selected != 0
  {
    if app == AppState.Menu && accept then
      if selected == 0 then FlowOut(Some(AppState.Game), None, false) else FlowOut(None, None, true)
    else Quiet
  }

  /**
    As written, the main menu's "Credits" entry quits the application
    instead of opening the credits, although the menu labels it so.
   */
  lemma CreditsEntryQuits()
    ensures MainMenu.entries[1] == "Credits"
    ensures MainMenuAccept(AppState.Menu, true, 1) == FlowOut(None, None, true)
    ensures MainMenuAccept(AppState.Menu, true, 1) != EntryEffect(MainMenu.entries[1])
  {
  }

  /**
    The in-game system shared by both revisions. `menu` is the selection
    of the menu on screen, `None` when the system cannot see exactly one
    menu. PauseUnpause toggles between running and paused regardless of
    any menu; Accept on the pause menu resumes, leaves for the main menu
    or quits; Accept on the game-over menu leaves or quits.
   */
  function GameMenuInput(game: GameState, a: MenuPress, menu: Option<int>): (r: FlowOut)
    ensures r.nextGame == Some(GameState.Paused) <==> game == GameState.Running && a.pauseUnpause
    ensures r.nextGame == Some(GameState.Running) <==>
      game == GameState.Paused && (a.pauseUnpause || (a.accept && menu == Some(0)))
    ensures r.nextGame.Some? ==> r.nextGame == Some(GameState.Paused) || r.nextGame == Some(GameState.Running)
    ensures r.nextApp.Some? ==> r.nextApp == Some(AppState.Menu)
    ensures r.nextApp.Some? <==> (a.accept && menu.Some? &&
      ((game == GameState.Paused && menu.value == 1) || (game == GameState.Over && menu.value == 0)))
    ensures r.exit <==> (a.accept && menu.Some? &&
      ((game == GameState.Paused && menu.value != 0 && menu.value != 1) || (game == GameState.Over && menu.value != 0)))
  {
    var o := if a.pauseUnpause && game == GameState.Running then Quiet.(nextGame := Some(GameState.Paused))
      else if a.pauseUnpause && game == GameState.Paused then Quiet.(nextGame := Some(GameState.Running))
      else Quiet;
    if a.accept && menu.Some? then
      if game == GameState.Paused then
        if menu.value == 0 then o.(nextGame := Some(GameState.Running))
        else if menu.value == 1 then o.(nextApp := Some(AppState.Menu))
        else o.(exit := true)
      else if game == GameState.Over then
        if menu.value == 0 then o.(nextApp := Some(AppState.Menu)) else o.(exit := true)
      else o
    else o
  }

  /**
    The in-game system of the single menu resource revision: it runs only
    during a game, and always sees the menu resource.
   */
  function GameMenuSystem(app: AppState, game: GameState, a: MenuPress, selected: int): (r: FlowOut)
    ensures app != AppState.Game ==> r == Quiet
    ensures app == AppState.Game && !a.accept && !a.pauseUnpause ==> r == Quiet
    ensures app == AppState.Game ==> r == GameMenuInput(game, a, Some(selected))
  {
    if app == AppState.Game then GameMenuInput(game, a, Some(selected)) else Quiet
  }

  /** Accepting an entry of the pause or game-over menu does what the entry's label says. */
  lemma {:induction false} GameMenusFollowTheirEntries(i: int)
    ensures 0 <= i < |PauseMenu.entries| ==>
      GameMenuInput(GameState.Paused, MenuPress(true, false), Some(i)) == EntryEffect(PauseMenu.entries[i])
    ensures 0 <= i < |GameOverMenu.entries| ==>
      GameMenuInput(GameState.Over, MenuPress(true, false), Some(i)) == EntryEffect(GameOverMenu.entries[i])
  {
    if 0 <= i < |PauseMenu.entries| {
      assert PauseMenu.entries[i] == ["Resume", "Menu", "Exit"][i];
    }
    if 0 <= i < |GameOverMenu.entries| {
      assert GameOverMenu.entries[i] == ["Menu", "Exit"][i];
    }
  }

  /** Pressing PauseUnpause twice, in two frames, resumes the game. */
  lemma PauseUnpauseRoundTrip(menu: Option<int>)
    ensures var s := Screen(AppState.Game, GameState.Running);
      var a := MenuPress(false, true);
      && Next(s, GameMenuInput(s.game, a, menu)) == Screen(AppState.Game, GameState.Paused)
      && Next(Next(s, GameMenuInput(s.game, a, menu)), GameMenuInput(GameState.Paused, a, menu)) == s
  {
  }

  /** Every frame of a game either stays on the screen or follows an edge of the game flow. */
  lemma {:induction false} GameMenuFollowsFlow(game: GameState, a: MenuPress, menu: Option<int>)
    ensures var s := Screen(AppState.Game, game);
      var n := Next(s, GameMenuInput(game, a, menu));
      n == s || FlowEdge(s, n)
  {
  }

  /**
    The main-menu system of the latest revision: it acts only when
    exactly one menu exists (`menus` lists the selection of each). On the
    main menu Accept starts a game, opens the credits or quits; on the
    credits screen it goes back to the main menu or quits.
   */
  function MainMenuInput(app: AppState, accept: bool, menus: seq<int>): (r: FlowOut)
    ensures r.nextGame.None?
    ensures r != Quiet ==> accept && |menus| == 1 && (app == AppState.Menu || app == AppState.Credits)
    ensures accept && |menus| == 1 && app == AppState.Menu ==>
      && (r.nextApp == Some(AppState.Game) <==> menus[0] == 0)
      && (r.nextApp == Some(AppState.Credits) <==> menus[0] == 1)
      && (r.exit <==> menus[0] != 0 && menus[0] != 1)
    ensures accept && |menus| == 1 && app == AppState.Credits ==>
      && (r.nextApp.Some? <==> menus[0] == 0)
      && (r.nextApp.Some? ==> r.nextApp == Some(AppState.Menu))
      && (r.exit <==> menus[0] != 0)
  {
    if |menus| == 1 && accept then
      var o := if app == AppState.Menu then
          (if menus[0] == 0 then Quiet.(nextApp := Some(AppState.Game))
           else if menus[0] == 1 then Quiet.(nextApp := Some(AppState.Credits))
           else Quiet.(exit := true))
        else Quiet;
      if app == AppState.Credits then
        if menus[0] == 0 then o.(nextApp := Some(AppState.Menu)) else o.(exit := true)
      else o
    else Quiet
  }

  /** In the latest revision every main-menu entry does what its label says, the credits entry included. */
  lemma {:induction false} MainMenuFollowsItsEntries(i: int)
    requires 0 <= i < |MainMenu.entries|
    ensures MainMenuInput(AppState.Menu, true, [i]) == EntryEffect(MainMenu.entries[i])
  {
    assert MainMenu.entries[i] == ["Play", "Credits", "Exit"][i];
  }

  /** The main-menu system changes the screen only along an edge of the game flow. */
  lemma {:induction false} MainMenuFollowsFlow(s: Screen, accept: bool, menus: seq<int>)
    ensures var n := Next(s, MainMenuInput(s.app, accept, menus));
      n == s || FlowEdge(s, n)
  {
  }

  /**
    The in-game system of the latest revision: PauseUnpause is honoured
    without a menu, Accept only when exactly one menu exists.
   */
  function GameMenuInteraction(game: GameState, a: MenuPress, menus: seq<int>): (r: FlowOut)
    ensures |menus| != 1 ==> r == GameMenuInput(game, a.(accept := false), None)
    ensures |menus| != 1 ==> r.nextApp.None? && !r.exit
    ensures |menus| == 1 ==> r == GameMenuInput(game, a, Some(menus[0]))
  {
    GameMenuInput(game, a, if |menus| == 1 then Some(menus[0]) else None)
  }

  /** Without a menu on screen, PauseUnpause still pauses and resumes. */
  lemma PauseWithoutMenu(accept: bool)
    ensures GameMenuInteraction(GameState.Running, MenuPress(accept, true), []).nextGame == Some(GameState.Paused)
    ensures GameMenuInteraction(GameState.Paused, MenuPress(accept, true), []).nextGame == Some(GameState.Running)
  {
  }
}

=== FILE: player.dfy ===
/**
  The player of the earliest revision: a single game state
  (`StartMenu`, `Game`, `Pause`, `GameOver`) changed through `transit_to`,
  and one input system that reads the keyboard to steer and fire the ship,
  pause and resume, and move between the menus.
 */
module Player {
  import opened Wrappers
  import opened Components
  import opened Timers

  datatype GameState = StartMenu | Game | Pause | GameOver

  const CannonPeriod: real := 0.2
  const RotationSpeed: real := 0.3
  const ShipThrust: real := 60.0

  /** The ship component of this revision. */
  datatype PlayerShip = PlayerShip(rotationSpeed: real, thrust: real, life: nat, cannonTimer: Timer)

  /** A ship entity as the input system sees it: the ship and the unit vector of its body's facing. */
  datatype PlayerEntity = PlayerEntity(ship: PlayerShip, facing: Vec2)

  /**
    Spawning the player: a ship with `startLife` lives and an unfinished
    0.2 s cannon timer, allowed in every state but the start menu, and
    recorded as the run's player.
   */
  function SpawnPlayer(startLife: nat, id: EntityId, facing: Vec2): (r: (map<EntityId, PlayerEntity>, seq<GameState>, Option<EntityId>))
    ensures r.2 == Some(id) && r.2.value in r.0
    ensures r.0[id].ship.life == startLife
    ensures r.0[id].ship.cannonTimer.Valid() && !r.0[id].ship.cannonTimer.Finished()
    ensures r.0[id].ship.cannonTimer.duration == CannonPeriod
    ensures r.0[id].ship.rotationSpeed == RotationSpeed && r.0[id].ship.thrust == ShipThrust
    ensures StartMenu !in r.1 && Game in r.1 && Pause in r.1 && GameOver in r.1
  {
    (map[id := PlayerEntity(PlayerShip(RotationSpeed, ShipThrust, startLife, FromSeconds(CannonPeriod)), facing)],
     [Game, Pause, GameOver],
     Some(id))
  }

  /** Every cannon timer advances by the frame's time; nothing else changes. */
  function ShipCannon(ships: map<EntityId, PlayerEntity>, delta: real): (r: map<EntityId, PlayerEntity>)
    requires delta >= 0.0
    requires forall id :: id in ships ==> ships[id].ship.cannonTimer.Valid()
    ensures r.Keys == ships.Keys
    ensures forall id :: id in ships ==>
      && r[id].(ship := r[id].ship.(cannonTimer := ships[id].ship.cannonTimer)) == ships[id]
      && r[id].ship.cannonTimer.Valid()
      && r[id].ship.cannonTimer.duration == ships[id].ship.cannonTimer.duration
      && (r[id].ship.cannonTimer.Finished() <==> ships[id].ship.cannonTimer.elapsed + delta >= ships[id].ship.cannonTimer.duration)
  {
    map id | id in ships :: ships[id].(ship := ships[id].ship.(cannonTimer := Tick(ships[id].ship.cannonTimer, delta)))
  }

  /** Keys: `back`, `escape` and `enter` count when just pressed, the others while held. */
  datatype Keys = Keys(back: bool, w: bool, a: bool, d: bool, space: bool, escape: bool, enter: bool)

  /**
    What one call of the input system did: the states it asked to move
    to, in order; the torque and force applied to the player's body; the
    player's ship after a shot; whether a laser was fired; the physics
    switch if written; whether quitting was requested.
   */
  datatype InputOut = InputOut(
    transitions: seq<GameState>,
    torque: Option<real>,
    force: Option<Vec2>,
    ships: map<EntityId, PlayerEntity>,
    fired: bool,
    physics: Option<bool>,
    exit: bool)

  /** The run records no player while the game state asks for one. */
  datatype InputError = NoPlayer

  /** -1, 0 or 1: A turns one way, D the other, both cancel. */
  function Turn(k: Keys): (t: int)
    ensures -1 <= t <= 1
    ensures t == 0 <==> k.a == k.d
  {
    (if k.a then 1 else 0) - (if k.d then 1 else 0)
  }

  /**
    The effect of the in-game keys on the player's entity, if it still
    exists: the torque, the force, the ship afterwards and whether it fired.
    The torque is the turn times the rotation speed and is applied only
    when nonzero; the force is the thrust along the facing, applied only
    while thrusting; the cannon fires only when ready and is then reset.
   */
  function Steer(e: Option<PlayerEntity>, k: Keys): (r: (Option<real>, Option<Vec2>, Option<PlayerShip>, bool))
    requires e.Some? ==> e.value.ship.cannonTimer.Valid()
    ensures e.None? ==> r == (None, None, None, false)
    ensures e.Some? ==>
      && (r.0.Some? <==> k.a != k.d)
      && (r.0.Some? ==> r.0.value == (if k.a then 1.0 else -1.0) * e.value.ship.rotationSpeed)
      && (r.1.Some? <==> k.w)
      && (r.1.Some? ==> r.1.value == Vec2(e.value.facing.x * e.value.ship.thrust, e.value.facing.y * e.value.ship.thrust))
      && (r.3 <==> k.space && e.value.ship.cannonTimer.Finished())
      && r.2.Some? && r.2.value.cannonTimer.Valid()
      && r.2.value.(cannonTimer := e.value.ship.cannonTimer) == e.value.ship
      && (r.3 ==> r.2.value.cannonTimer.elapsed == 0.0)
      && (r.3 ==> r.2.value == e.value.ship.(cannonTimer := Reset(e.value.ship.cannonTimer)))
      && (!r.3 ==> r.2.value == e.value.ship)
  {
    match e
    case None => (None, None, None, false)
    case Some(p) =>
      var thrust := if k.w then 1 else 0;
      var torque := if Turn(k) != 0 then Some(Turn(k) as real * p.ship.rotationSpeed) else None;
      var force := if thrust != 0 then Some(Vec2(p.facing.x * thrust as real * p.ship.thrust, p.facing.y * thrust as real * p.ship.thrust)) else None;
      var shoots := k.space && p.ship.cannonTimer.Finished();
      (torque, force, Some(if shoots then p.ship.(cannonTimer := Reset(p.ship.cannonTimer)) else p.ship), shoots)
  }

  /**
    What the input system does to the player `p` in a game: A and D turn
    it unless both are held, W thrusts along its facing, Space fires when
    the cannon is ready and then resets the cannon; a player whose entity
    is gone is not steered, and no other ship changes.
   */
  predicate Steers(p: EntityId, ships: map<EntityId, PlayerEntity>, k: Keys, o: InputOut)
    requires forall id :: id in ships ==> ships[id].ship.cannonTimer.Valid()
  {
    && (o.torque.Some? <==> p in ships && k.a != k.d)
    && (o.torque.Some? ==> o.torque.value == (if k.a then 1.0 else -1.0) * ships[p].ship.rotationSpeed)
    && (o.force.Some? <==> p in ships && k.w)
    && (o.force.Some? ==> o.force.value == Vec2(ships[p].facing.x * ships[p].ship.thrust, ships[p].facing.y * ships[p].ship.thrust))
    && (o.fired <==> p in ships && k.space && ships[p].ship.cannonTimer.Finished())
    && (o.fired ==> p in o.ships && o.ships[p].ship.cannonTimer.elapsed == 0.0)
    && (o.fired ==> assert ships[p].ship.cannonTimer.Valid(); o.ships[p] == ships[p].(ship := ships[p].ship.(cannonTimer := Reset(ships[p].ship.cannonTimer))))
    && (forall id :: id in ships && !(o.fired && id == p) ==> id in o.ships && o.ships[id] == ships[id])
  }

  /** The in-game part of the input system for the recorded player `p`. */
  function InGame(p: EntityId, ships: map<EntityId, PlayerEntity>, k: Keys, quiet: InputOut): (o: InputOut)
    requires forall id :: id in ships ==> ships[id].ship.cannonTimer.Valid()
    requires quiet.ships == ships && quiet.physics.None?
    ensures o.transitions == quiet.transitions + (if k.escape then [Pause] else [])
    ensures o.physics == (if k.escape then Some(false) else None) && o.exit == quiet.exit
    ensures o.ships.Keys == ships.Keys && forall id :: id in ships ==> o.ships[id].ship.cannonTimer.Valid()
    ensures Steers(p, ships, k, o)
  {
    var (torque, force, ship, fired) := Steer(if p in ships then Some(ships[p]) else None, k);
    var ships' := if ship.Some? then ships[p := ships[p].(ship := ship.value)] else ships;
    var o := quiet.(torque := torque, force := force, ships := ships', fired := fired);
    if k.escape then o.(transitions := quiet.transitions + [Pause], physics := Some(false)) else o
  }

  /**
    The transition a key of this frame asks for, apart from Back, by the
    state at the start of the call: Enter starts a game from the start menu
    and leaves the game-over screen for it; Escape pauses a game and resumes
    a paused one.
   */
  function KeyTransition(state: GameState, k: Keys): (t: Option<GameState>)
    ensures t.Some? <==> (k.enter && (state == StartMenu || state == GameOver)) || (k.escape && (state == Game || state == Pause))
  {
    match state
    case StartMenu => if k.enter then Some(Game) else None
    case GameOver => if k.enter then Some(StartMenu) else None
    case Game => if k.escape then Some(Pause) else None
    case Pause => if k.escape then Some(Game) else None
  }

  /** The part of the input system for the screens outside a game: the start menu, the game-over screen and a pause. */
  function Menus(state: GameState, k: Keys, quiet: InputOut): (o: InputOut)
    requires state != Game && quiet.physics.None? && !quiet.exit && !quiet.fired
    ensures o.transitions == quiet.transitions + (if KeyTransition(state, k).Some? then [KeyTransition(state, k).value] else [])
    ensures o.physics == (if state == Pause && k.escape then Some(true) else None)
    ensures o.exit <==> k.escape && state != Pause
    ensures o.(transitions := quiet.transitions, physics := None, exit := false) == quiet
  {
    match state
    case StartMenu =>
      quiet.(transitions := quiet.transitions + (if k.enter then [Game] else []), exit := k.escape)
    case GameOver =>
      quiet.(transitions := quiet.transitions + (if k.enter then [StartMenu] else []), exit := k.escape)
    case Pause =>
      if k.escape then quiet.(transitions := quiet.transitions + [Game], physics := Some(true)) else quiet
  }

  /**
    The input system. Back asks for the start menu in every state. The
    other keys are judged on the state at the start of the call: in a game
    the player's ship turns, thrusts and fires, and Escape pauses and stops
    physics; in the start menu Enter starts a game and Escape quits; on the
    game-over screen Enter goes to the start menu and Escape quits; in a
    pause Escape resumes and restarts physics. A game without a recorded
    player aborts; a recorded player whose entity is gone is not steered.
   */
  function UserInput(state: GameState, player: Option<EntityId>, ships: map<EntityId, PlayerEntity>, k: Keys)
    : (r: Result<InputOut, InputError>)
    requires forall id :: id in ships ==> ships[id].ship.cannonTimer.Valid()
    ensures r.Failure? <==> state == Game && player.None?
    ensures r.Success? ==>
      && r.value.transitions == (if k.back then [StartMenu] else [])
                                + (if KeyTransition(state, k).Some? then [KeyTransition(state, k).value] else [])
      && (r.value.physics == Some(false) <==> state == Game && k.escape)
      && (r.value.physics == Some(true) <==> state == Pause && k.escape)
      && (r.value.exit <==> k.escape && (state == StartMenu || state == GameOver))
      && r.value.ships.Keys == ships.Keys
      && (forall id :: id in ships ==> r.value.ships[id].ship.cannonTimer.Valid())
    ensures r.Success? && state != Game ==>
      r.value.torque.None? && r.value.force.None? && !r.value.fired && r.value.ships == ships
    ensures r.Success? && state == Game ==> Steers(player.value, ships, k, r.value)
  {
    var back: seq<GameState> := if k.back then [StartMenu] else [];
    var quiet := InputOut(back, None, None, ships, false, None, false);
    match state
    case Game =>
      if player.None? then Failure(NoPlayer) else Success(InGame(player.value, ships, k, quiet))
    case _ => Success(Menus(state, k, quiet))
  }

  /** Holding both turn keys applies no torque at all. */
  lemma BothTurnKeysCancel(player: Option<EntityId>, ships: map<EntityId, PlayerEntity>, k: Keys)
    requires forall id :: id in ships ==> ships[id].ship.cannonTimer.Valid()
    requires k.a && k.d && player.Some?
    ensures UserInput(Game, player, ships, k).Success?
    ensures UserInput(Game, player, ships, k).value.torque.None?
  {
  }

  /**
    After a shot, holding fire does not shoot again until the cannon's
    period has passed: a frame shorter than the period leaves it unready.
   */
  lemma {:induction false} CannonGatesFire(p: EntityId, ships: map<EntityId, PlayerEntity>, k: Keys, delta: real)
    requires forall id :: id in ships ==> ships[id].ship.cannonTimer.Valid()
    requires p in ships && 0.0 <= delta < ships[p].ship.cannonTimer.duration
    requires UserInput(Game, Some(p), ships, k).Success? && UserInput(Game, Some(p), ships, k).value.fired
    ensures var after := ShipCannon(UserInput(Game, Some(p), ships, k).value.ships, delta);
      UserInput(Game, Some(p), after, k).Success? && !UserInput(Game, Some(p), after, k).value.fired
  {
    var shot := UserInput(Game, Some(p), ships, k).value.ships;
    assert shot[p].ship.cannonTimer.elapsed == 0.0;
    var after := ShipCannon(shot, delta);
    assert !after[p].ship.cannonTimer.Finished();
  }

  /** The physics switch is on exactly outside a pause. */
  predicate PhysicsConsistent(s: GameState, active: bool) {
    active <==> s != Pause
  }

  /** The state-machine edges the input system drives. */
  predicate Edge(from: GameState, to: GameState) {
    || (from == StartMenu && to == Game)
    || (from == GameOver && to == StartMenu)
    || (from == Game && to == Pause)
    || (from == Pause && to == Game)
  }

  /** Every edge of the state machine has a key that drives it, and every key transition is an edge. */
  lemma KeysDriveEdges(from: GameState, to: GameState, k: Keys)
    ensures KeyTransition(from, k) == Some(to) ==> Edge(from, to)
    ensures Edge(from, to) ==> exists k': Keys :: KeyTransition(from, k') == Some(to)
  {
    if Edge(from, to) {
      var k' := Keys(false, false, false, false, false, from == Game || from == Pause, from == StartMenu || from == GameOver);
      assert KeyTransition(from, k') == Some(to);
    }
  }

  /**
    Without Back, a call asks for at most one transition, along an edge
    of the state machine, and the physics switch it writes matches the
    state it asks for.
   */
  lemma {:induction false} OneTransitionKeepsPhysics(state: GameState, active: bool, player: Option<EntityId>,
                                                     ships: map<EntityId, PlayerEntity>, k: Keys)
    requires forall id :: id in ships ==> ships[id].ship.cannonTimer.Valid()
    requires !k.back && PhysicsConsistent(state, active)
    requires UserInput(state, player, ships, k).Success?
    ensures var o := UserInput(state, player, ships, k).value;
      && |o.transitions| <= 1
      && (|o.transitions| == 1 ==> Edge(state, o.transitions[0]))
      && PhysicsConsistent(if |o.transitions| == 1 then o.transitions[0] else state, o.physics.GetOr(active))
  {
    var o := UserInput(state, player, ships, k).value;
    match state
    case Game =>
      assert o.transitions == (if k.escape then [Pause] else []);
    case StartMenu =>
    case GameOver =>
    case Pause =>
  }
}

=== FILE: player_ship.dfy ===
/**
  The player's ship of the two-level-state revision: its creation, its
  timers, its input handling, and the damage and invincibility rules that
  apply when it touches an asteroid.
 */
module PlayerShip {
  import opened Wrappers
  import opened Components
  import opened Timers
  import States
  import Contact
  import Lasers

  const StartLife: nat := 3
  const InvincibleTime: real := 2.0
  const MaxInvincibleTime: real := 5.0
  const CannonPeriod: real := 0.2
  const RotationSpeed: real := 3.0
  const ShipThrust: real := 60.0

  /**
    The ship component: life points, the auto-fire timer, the controlling
    player, the short invincibility that follows a hit, and the total time
    that invincibility has been renewed for.
   */
  datatype Ship = Ship(
    rotationSpeed: real,
    thrust: real,
    life: nat,
    cannonTimer: Timer,
    playerId: nat,
    invincibleTimer: Timer,
    invincibleTimeSecs: real)

  /**
    What holds of every ship between hits: its timers are in range with
    their fixed durations, renewed invincibility stays under the cap, and a
    ship out of life is still invincible (it is despawned before it could
    be hit vulnerable again).
   */
  predicate ShipValid(s: Ship) {
    && s.cannonTimer.Valid() && s.cannonTimer.duration == CannonPeriod
    && s.invincibleTimer.Valid() && s.invincibleTimer.duration == InvincibleTime
    && 0.0 <= s.invincibleTimeSecs < MaxInvincibleTime
    && (s.life >= 1 || !s.invincibleTimer.Finished())
  }

  /** Vulnerable: the invincibility that follows a hit has run out. */
  predicate Vulnerable(s: Ship) {
    s.invincibleTimer.Finished()
  }

  /**
    A new ship: full life, no renewed invincibility, and an invincibility
    timer consumed on the spot so that the ship starts vulnerable. It lives
    only in the `Game` outer state.
   */
  function SpawnShip(): (r: (Ship, seq<States.AppState>))
    ensures r.0.life == StartLife && r.0.invincibleTimeSecs == 0.0 && r.0.playerId == 1
    ensures ShipValid(r.0) && Vulnerable(r.0)
    ensures !r.0.cannonTimer.Finished()
    ensures r.1 == [States.AppState.Game]
  {
    var invincible := Tick(FromSeconds(InvincibleTime), InvincibleTime);
    (Ship(RotationSpeed, ShipThrust, StartLife, FromSeconds(CannonPeriod), 1, invincible, 0.0), [States.AppState.Game])
  }

  /** One frame of the ship timers: both advance by the same frame time; nothing else changes. */
  function ShipTimers(s: Ship, delta: real): (r: Ship)
    requires ShipValid(s) && delta >= 0.0
    ensures r.cannonTimer == Tick(s.cannonTimer, delta) && r.invincibleTimer == Tick(s.invincibleTimer, delta)
    ensures r.(cannonTimer := s.cannonTimer, invincibleTimer := s.invincibleTimer) == s
    ensures r.cannonTimer.Finished() <==> s.cannonTimer.elapsed + delta >= CannonPeriod
    ensures Vulnerable(r) <==> s.invincibleTimer.elapsed + delta >= InvincibleTime
    ensures s.life >= 1 ==> ShipValid(r)
  {
    s.(cannonTimer := Tick(s.cannonTimer, delta), invincibleTimer := Tick(s.invincibleTimer, delta))
  }

  /** Ticking the ship timers frame by frame is ticking them once by the total frame time. */
  lemma ShipTimersAdd(s: Ship, d1: real, d2: real)
    requires ShipValid(s) && s.life >= 1 && d1 >= 0.0 && d2 >= 0.0
    ensures ShipTimers(ShipTimers(s, d1), d2) == ShipTimers(s, d1 + d2)
  {
    TickAdds(s.cannonTimer, d1, d2);
    TickAdds(s.invincibleTimer, d1, d2);
  }

  /** Pressed ship actions. */
  datatype Actions = Actions(forward: bool, rotateLeft: bool, rotateRight: bool, fire: bool)

  /**
    A ship's body as the input system sees it: position, the unit vector of
    its facing, velocities and the impulse applied this frame.
   */
  datatype ShipBody = ShipBody(ship: Ship, pos: Vec2, facing: Vec2, linvel: Vec2, angvel: real, impulse: Vec2)

  /** The rotation the input asks for: left wins over right. */
  function Rotation(a: Actions): (r: int)
    ensures -1 <= r <= 1
    ensures r == 0 <==> !a.rotateLeft && !a.rotateRight
    ensures a.rotateLeft ==> r == 1
    ensures r == -1 <==> a.rotateRight && !a.rotateLeft
  {
    if a.rotateLeft then 1 else if a.rotateRight then -1 else 0
  }

  /**
    The input system. Outside the `Game` phase it does nothing. In it: the
    angular velocity is set from the rotation only when there is one; the
    impulse is the thrust along the facing, or zero; and a laser is fired,
    re-arming the cannon, only when fire is pressed and the cannon is ready.
   */
  function ShipInput(g: States.AppGameState, a: Actions, b: ShipBody): (r: (ShipBody, Option<Lasers.LaserSpawnEvent>))
    requires b.ship.cannonTimer.Valid()
    ensures g != States.AppGameState.Game ==> r == (b, None)
    ensures r.0.ship.(cannonTimer := b.ship.cannonTimer) == b.ship
    ensures r.0.pos == b.pos && r.0.facing == b.facing && r.0.linvel == b.linvel
    ensures g == States.AppGameState.Game ==>
      && (a.rotateLeft ==> r.0.angvel == b.ship.rotationSpeed)
      && (!a.rotateLeft && a.rotateRight ==> r.0.angvel == -b.ship.rotationSpeed)
      && (!a.rotateLeft && !a.rotateRight ==> r.0.angvel == b.angvel)
      && r.0.impulse == (if a.forward then Vec2(b.facing.x * b.ship.thrust, b.facing.y * b.ship.thrust) else Vec2(0.0, 0.0))
    ensures r.1.Some? <==> g == States.AppGameState.Game && a.fire && b.ship.cannonTimer.Finished()
    ensures r.1.Some? ==> r.1.value == Lasers.LaserSpawnEvent(b.pos, b.facing, b.linvel)
                          && r.0.ship.cannonTimer == Timer(0.0, b.ship.cannonTimer.duration)
    ensures r.1.None? ==> r.0.ship.cannonTimer == b.ship.cannonTimer
  {
    if g != States.AppGameState.Game then (b, None)
    else
      var thrust := if a.forward then 1.0 else 0.0;
      var rotation := Rotation(a);
      var angvel := if rotation != 0 then rotation as real * b.ship.rotationSpeed else b.angvel;
      var impulse := Vec2(b.facing.x * (thrust * b.ship.thrust), b.facing.y * (thrust * b.ship.thrust));
      var body := b.(angvel := angvel, impulse := impulse);
      if a.fire && b.ship.cannonTimer.Finished() then
        (body.(ship := body.ship.(cannonTimer := Reset(b.ship.cannonTimer))), Some(Lasers.LaserSpawnEvent(b.pos, b.facing, b.linvel)))
      else (body, None)
  }

  /** The cannon cannot fire twice without time passing in between: firing re-arms it for a full period. */
  lemma NoDoubleFire(a: Actions, b: ShipBody)
    requires ShipValid(b.ship)
    requires ShipInput(States.AppGameState.Game, a, b).1.Some?
    ensures ShipInput(States.AppGameState.Game, a, ShipInput(States.AppGameState.Game, a, b).0).1.None?
  {
  }

  /** What a contact did to the ship. */
  datatype HitOutcome = Damaged | Killed | Renewed | Absorbed

  /**
    Why the damage system aborts: a contact names a ship that does not
    exist, a vulnerable ship with no life left is hit (the unsigned
    decrement underflows), or the `GameOver` request is refused.
   */
  datatype ShipError = MissingShip(ship: EntityId) | LifeUnderflow(ship: EntityId) | StateRefused(err: States.StateError)

  /**
    The damage rule for one contact. A vulnerable ship loses exactly one
    life, its renewal total restarts and its invincibility starts over; it
    is Killed when that was its last life and Damaged otherwise. An
    invincible ship keeps its life; its invincibility is renewed, adding
    the time already spent to the total, only while that total stays under
    the 5 s cap, and otherwise the contact is absorbed with no change.
   */
  function OnContact(s: Ship): (r: Option<(Ship, HitOutcome)>)
    requires s.invincibleTimer.Valid()
    ensures r.None? <==> Vulnerable(s) && s.life == 0
    ensures r.Some? && Vulnerable(s) ==>
      && r.value.0.life + 1 == s.life
      && r.value.0.invincibleTimeSecs == 0.0
      && r.value.0.invincibleTimer == Timer(0.0, s.invincibleTimer.duration)
      && r.value.1 == (if r.value.0.life == 0 then Killed else Damaged)
    ensures r.Some? && !Vulnerable(s) ==> r.value.0.life == s.life
    ensures !Vulnerable(s) && s.invincibleTimeSecs + s.invincibleTimer.elapsed < MaxInvincibleTime ==>
      r == Some((s.(invincibleTimeSecs := s.invincibleTimeSecs + s.invincibleTimer.elapsed,
                    invincibleTimer := Timer(0.0, s.invincibleTimer.duration)), Renewed))
    ensures !Vulnerable(s) && s.invincibleTimeSecs + s.invincibleTimer.elapsed >= MaxInvincibleTime ==>
      r == Some((s, Absorbed))
    ensures r.Some? ==> r.value.0.cannonTimer == s.cannonTimer && r.value.0.playerId == s.playerId
  {
    if Vulnerable(s) then
      if s.life == 0 then None
      else
        var hit := s.(invincibleTimeSecs := 0.0, life := s.life - 1, invincibleTimer := Reset(s.invincibleTimer));
        Some((hit, if hit.life == 0 then Killed else Damaged))
    else if s.invincibleTimeSecs + s.invincibleTimer.elapsed < MaxInvincibleTime then
      Some((s.(invincibleTimeSecs := s.invincibleTimeSecs + s.invincibleTimer.elapsed,
               invincibleTimer := Reset(s.invincibleTimer)), Renewed))
    else Some((s, Absorbed))
  }

  /** A valid ship stays valid through any contact, never underflows, and is never vulnerable right after one. */
  lemma ContactKeepsShipValid(s: Ship)
    requires ShipValid(s)
    ensures OnContact(s).Some?
    ensures ShipValid(OnContact(s).value.0)
    ensures OnContact(s).value.1 != Absorbed ==> !Vulnerable(OnContact(s).value.0)
  {
  }

  /** The ship as the damage system reads it: the component and the position it explodes at. */
  datatype ShipAt = ShipAt(ship: Ship, pos: Vec2)

  /**
    The state the damage system threads through a frame's contacts: the
    ships (a ship despawned this frame is still readable until the frame
    ends), the game phase, and what has been requested so far.
   */
  datatype Frame = Frame(ships: map<EntityId, ShipAt>, game: States.StateCell<States.AppGameState>,
                         explosions: seq<Explosion>, despawned: seq<EntityId>)

  predicate AllShipsValid(ships: map<EntityId, ShipAt>) {
    forall id :: id in ships ==> ShipValid(ships[id].ship)
  }

  /** The engine keeps every invincibility timer within its duration. */
  predicate TimersValid(ships: map<EntityId, ShipAt>) {
    forall id :: id in ships ==> ships[id].ship.invincibleTimer.Valid()
  }

  /**
    When the damage system panics on a contact: the ship is missing, a
    vulnerable ship has no life left, or its last life goes and the
    `GameOver` request is refused. Any other hit never aborts.
   */
  predicate StepAborts(f: Frame, e: Contact.ShipAsteroidContact) {
    || e.ship !in f.ships
    || (&& Vulnerable(f.ships[e.ship].ship)
        && (|| f.ships[e.ship].ship.life == 0
            || (f.ships[e.ship].ship.life == 1 && States.SetState(f.game, States.AppGameState.GameOver).Failure?)))
  }

  /**
    One contact. A missing ship aborts, and so does a vulnerable ship with
    no life left. A Killed ship explodes as dead, is despawned and asks for
    the `GameOver` phase, which aborts if that request is refused; a Damaged
    ship explodes as touched; renewal and absorption request nothing. Other
    ships are untouched.
   */
  function Step(f: Frame, e: Contact.ShipAsteroidContact): (r: Result<Frame, ShipError>)
    requires TimersValid(f.ships)
    ensures e.ship !in f.ships ==> r == Failure(MissingShip(e.ship))
    ensures e.ship in f.ships && Vulnerable(f.ships[e.ship].ship) && f.ships[e.ship].ship.life == 0 ==>
      r == Failure(LifeUnderflow(e.ship))
    ensures r.Success? ==> e.ship in f.ships && r.value.ships.Keys == f.ships.Keys && TimersValid(r.value.ships)
    ensures r.Success? && AllShipsValid(f.ships) ==> AllShipsValid(r.value.ships)
    ensures r.Success? ==> forall id :: id in f.ships && id != e.ship ==> r.value.ships[id] == f.ships[id]
    ensures r.Success? ==> r.value.ships[e.ship].pos == f.ships[e.ship].pos
    ensures r.Success? && Vulnerable(f.ships[e.ship].ship) ==>
      var before := f.ships[e.ship]; var after := r.value.ships[e.ship].ship;
      && after.life + 1 == before.ship.life
      && r.value.explosions == f.explosions + [Explosion(if after.life == 0 then ShipDead else ShipContact, before.pos.x, before.pos.y)]
      && (after.life == 0 ==> r.value.despawned == f.despawned + [e.ship] && r.value.game == States.StateCell(f.game.current, Some(States.AppGameState.GameOver)))
      && (after.life != 0 ==> r.value.despawned == f.despawned && r.value.game == f.game)
    ensures r.Success? && !Vulnerable(f.ships[e.ship].ship) ==>
      && r.value.ships[e.ship].ship.life == f.ships[e.ship].ship.life
      && r.value.explosions == f.explosions && r.value.despawned == f.despawned && r.value.game == f.game
    ensures r.Failure? && e.ship in f.ships && !(Vulnerable(f.ships[e.ship].ship) && f.ships[e.ship].ship.life == 0) ==>
      r.error.StateRefused?
    ensures r.Failure? <==> StepAborts(f, e)
  {
    if e.ship !in f.ships then Failure(MissingShip(e.ship))
    else
      var at := f.ships[e.ship];
      match OnContact(at.ship)
      case None => Failure(LifeUnderflow(e.ship))
      case Some((s, outcome)) =>
        assert AllShipsValid(f.ships) ==> ShipValid(s) by {
          if AllShipsValid(f.ships) {
            ContactKeepsShipValid(at.ship);
          }
        }
        var ships := f.ships[e.ship := ShipAt(s, at.pos)];
        match outcome
        case Killed =>
          (match States.SetState(f.game, States.AppGameState.GameOver)
           case Failure(err) => Failure(StateRefused(err))
           case Success(game) =>
             Success(Frame(ships, game, f.explosions + [Explosion(ShipDead, at.pos.x, at.pos.y)], f.despawned + [e.ship])))
        case Damaged => Success(f.(ships := ships, explosions := f.explosions + [Explosion(ShipContact, at.pos.x, at.pos.y)]))
        case _ => Success(f.(ships := ships))
  }

  /**
    The damage system over a frame's ship/asteroid contacts, in order. It
    keeps valid ships valid, never underflows a valid ship's life, and only
    ever adds to the explosions.
   */
  function ShipDamage(f: Frame, events: seq<Contact.ShipAsteroidContact>): (r: Result<Frame, ShipError>)
    requires TimersValid(f.ships)
    ensures r.Success? ==> r.value.ships.Keys == f.ships.Keys && TimersValid(r.value.ships)
    ensures r.Success? && AllShipsValid(f.ships) ==> AllShipsValid(r.value.ships)
    ensures r.Failure? && AllShipsValid(f.ships) ==> !r.error.LifeUnderflow?
    ensures r.Success? ==> forall i :: 0 <= i < |events| ==> events[i].ship in f.ships
    ensures r.Success? ==> |f.explosions| <= |r.value.explosions| <= |f.explosions| + |events|
    ensures r.Success? ==> r.value.explosions[..|f.explosions|] == f.explosions
    decreases |events|
  {
    if |events| == 0 then Success(f)
    else
      match Step(f, events[0])
      case Failure(err) =>
        assert AllShipsValid(f.ships) && events[0].ship in f.ships ==> ShipValid(f.ships[events[0].ship].ship);
        Failure(err)
      case Success(next) =>
        var r := ShipDamage(next, events[1..]);
        assert r.Success? ==> forall i :: 1 <= i < |events| ==> events[1..][i - 1] == events[i];
        r
  }

  /** Once invincible, a ship keeps its life and its invincibility for the rest of the frame. */
  lemma {:induction false} ShieldedShipKeepsLife(f: Frame, events: seq<Contact.ShipAsteroidContact>, id: EntityId)
    requires AllShipsValid(f.ships) && id in f.ships && !Vulnerable(f.ships[id].ship)
    requires ShipDamage(f, events).Success?
    ensures id in ShipDamage(f, events).value.ships
    ensures ShipDamage(f, events).value.ships[id].ship.life == f.ships[id].ship.life
    ensures !Vulnerable(ShipDamage(f, events).value.ships[id].ship)
    decreases |events|
  {
    if |events| > 0 {
      var next := Step(f, events[0]).value;
      if events[0].ship == id {
        ContactKeepsShipValid(f.ships[id].ship);
      }
      ShieldedShipKeepsLife(next, events[1..], id);
    }
  }

  /** A frame's contacts cost a ship at most one life, however many of them there are. */
  lemma {:induction false} AtMostOneLifePerFrame(f: Frame, events: seq<Contact.ShipAsteroidContact>, id: EntityId)
    requires AllShipsValid(f.ships) && id in f.ships
    requires ShipDamage(f, events).Success?
    ensures ShipDamage(f, events).value.ships[id].ship.life + 1 >= f.ships[id].ship.life
    decreases |events|
  {
    if !Vulnerable(f.ships[id].ship) {
      ShieldedShipKeepsLife(f, events, id);
    } else if |events| > 0 {
      var next := Step(f, events[0]).value;
      if events[0].ship == id {
        ContactKeepsShipValid(f.ships[id].ship);
        ShieldedShipKeepsLife(next, events[1..], id);
      } else {
        AtMostOneLifePerFrame(next, events[1..], id);
      }
    }
  }

  /**
    How the game phase and a lone ship's life move together during a frame:
    no `GameOver` requested while the ship has life, and `GameOver`
    requested once it has none.
   */
  predicate LoneShipInvariant(f: Frame, id: EntityId) {
    && f.ships.Keys == {id} && AllShipsValid(f.ships)
    && f.game.current != States.AppGameState.GameOver
    && (if f.ships[id].ship.life == 0 then f.game.queued == Some(States.AppGameState.GameOver) else f.game.queued.None?)
  }

  /**
    With a single ship, the damage system never aborts on the game-over
    request: the ship asks for `GameOver` at most once, exactly when its
    last life goes, and is never hit vulnerable again in that frame.
   */
  lemma {:induction false} LoneShipGameOverOnce(f: Frame, events: seq<Contact.ShipAsteroidContact>, id: EntityId)
    requires LoneShipInvariant(f, id)
    requires forall i :: 0 <= i < |events| ==> events[i].ship == id
    ensures ShipDamage(f, events).Success?
    ensures LoneShipInvariant(ShipDamage(f, events).value, id)
    decreases |events|
  {
    if |events| > 0 {
      ContactKeepsShipValid(f.ships[id].ship);
      var r := Step(f, events[0]);
      assert r.Success?;
      forall i | 0 <= i < |events[1..]| ensures events[1..][i].ship == id {
        assert events[1..][i] == events[i + 1];
      }
      LoneShipInvariant1(f, events[0], id);
      LoneShipGameOverOnce(r.value, events[1..], id);
    }
  }

  lemma LoneShipInvariant1(f: Frame, e: Contact.ShipAsteroidContact, id: EntityId)
    requires LoneShipInvariant(f, id) && e.ship == id
    ensures Step(f, e).Success?
    ensures LoneShipInvariant(Step(f, e).value, id)
  {
    ContactKeepsShipValid(f.ships[id].ship);
  }

  /**
    Two ships that both lose their last life in the same frame abort the
    game: the second `GameOver` request is refused.
   */
  lemma TwoDeathsAbort(f: Frame, a: EntityId, b: EntityId, rockA: EntityId, rockB: EntityId)
    requires AllShipsValid(f.ships) && a in f.ships && b in f.ships && a != b
    requires f.game.current != States.AppGameState.GameOver && f.game.queued.None?
    requires Vulnerable(f.ships[a].ship) && f.ships[a].ship.life == 1
    requires Vulnerable(f.ships[b].ship) && f.ships[b].ship.life == 1
    ensures ShipDamage(f, [Contact.ShipAsteroidContact(a, rockA), Contact.ShipAsteroidContact(b, rockB)])
            == Failure(StateRefused(States.StateAlreadyQueued))
  {
    var events := [Contact.ShipAsteroidContact(a, rockA), Contact.ShipAsteroidContact(b, rockB)];
    var first := Step(f, events[0]);
    assert first.Success?;
    assert first.value.ships[b] == f.ships[b];
    assert events[1..] == [Contact.ShipAsteroidContact(b, rockB)];
  }
}

=== FILE: state.dfy ===
/**
  The two-level game state of the middle revisions and the state-scoped
  teardown: an entity may carry the list of states it is allowed to live in,
  and entering a state despawns every entity whose list lacks that state.
 */
module States {
  import opened Wrappers
  import opened Components
  import Arena

  /** Outer state: the start screen or a game. */
  datatype AppState = StartMenu | Game

  /** Phase of a game; `Invalid` while the outer state is not a game. */
  datatype AppGameState = Invalid | Game | Pause | GameOver

  /**
    An entity as the teardown sees it: its handle and its optional
    `ForState<AppState>` and `ForState<AppGameState>` lists.
   */
  datatype Entity = Entity(id: EntityId, forApp: Option<seq<AppState>>, forGame: Option<seq<AppGameState>>)

  /** An entity without a list, or whose list names `s`, may live in state `s`. */
  predicate Allowed<T(==)>(scope: Option<seq<T>>, s: T) {
    scope.None? || s in scope.value
  }

  /** The entities kept and the entities despawned by one teardown. */
  datatype Sweep = Sweep(kept: seq<Entity>, despawned: seq<Entity>)

  /**
    The teardown on entering `s`, for the state enum that `scope` selects:
    every entity lands in exactly one of the two lists, kept exactly when it
    is allowed in `s`.
   */
  function SweepBy<T(==)>(es: seq<Entity>, scope: Entity -> Option<seq<T>>, s: T): (r: Sweep)
    ensures multiset(r.kept) + multiset(r.despawned) == multiset(es)
    ensures forall e :: e in r.kept ==> Allowed(scope(e), s)
    ensures forall e :: e in r.despawned ==> !Allowed(scope(e), s)
    ensures |r.kept| <= |es|
  {
    if |es| == 0 then Sweep([], [])
    else
      var rest := SweepBy(es[1..], scope, s);
      assert es == [es[0]] + es[1..];
      if Allowed(scope(es[0]), s) then Sweep([es[0]] + rest.kept, rest.despawned)
      else Sweep(rest.kept, [es[0]] + rest.despawned)
  }

  /** `state_enter_despawn::<AppState>`: only the `ForState<AppState>` lists are consulted. */
  function EnterAppState(es: seq<Entity>, s: AppState): (r: Sweep)
    ensures multiset(r.kept) + multiset(r.despawned) == multiset(es)
    ensures forall e :: e in es ==> (e in r.despawned <==> e.forApp.Some? && s !in e.forApp.value)
    ensures forall e :: e in es ==> (e in r.kept <==> Allowed(e.forApp, s))
  {
    var r := SweepBy(es, (e: Entity) => e.forApp, s);
    SweepMembership(es, (e: Entity) => e.forApp, s, r);
    r
  }

  /** `state_enter_despawn::<AppGameState>`: only the `ForState<AppGameState>` lists are consulted. */
  function EnterGameState(es: seq<Entity>, g: AppGameState): (r: Sweep)
    ensures multiset(r.kept) + multiset(r.despawned) == multiset(es)
    ensures forall e :: e in es ==> (e in r.despawned <==> e.forGame.Some? && g !in e.forGame.value)
    ensures forall e :: e in es ==> (e in r.kept <==> Allowed(e.forGame, g))
  {
    var r := SweepBy(es, (e: Entity) => e.forGame, g);
    SweepMembership(es, (e: Entity) => e.forGame, g, r);
    r
  }

  /** Membership in the result follows from the multiset split and the two per-list promises. */
  lemma SweepMembership<T>(es: seq<Entity>, scope: Entity -> Option<seq<T>>, s: T, r: Sweep)
    requires r == SweepBy(es, scope, s)
    ensures forall e :: e in es ==> (e in r.despawned <==> !Allowed(scope(e), s))
    ensures forall e :: e in es ==> (e in r.kept <==> Allowed(scope(e), s))
  {
    forall e | e in es
      ensures e in r.despawned <==> !Allowed(scope(e), s)
      ensures e in r.kept <==> Allowed(scope(e), s)
    {
      assert e in multiset(es);
      assert e in multiset(r.kept) || e in multiset(r.despawned);
    }
  }

  /** A list whose every entity is allowed in `s` survives the teardown whole. */
  lemma {:induction false} AllAllowedKept<T>(es: seq<Entity>, scope: Entity -> Option<seq<T>>, s: T)
    requires forall e :: e in es ==> Allowed(scope(e), s)
    ensures SweepBy(es, scope, s) == Sweep(es, [])
  {
    if |es| > 0 {
      assert es[0] in es;
      forall e | e in es[1..] ensures Allowed(scope(e), s) {
        assert e in es;
      }
      AllAllowedKept(es[1..], scope, s);
      assert es == [es[0]] + es[1..];
    }
  }

  /** Teardown is idempotent: a second pass for the same state despawns nothing more. */
  lemma SweepIdempotent<T>(es: seq<Entity>, scope: Entity -> Option<seq<T>>, s: T)
    ensures SweepBy(SweepBy(es, scope, s).kept, scope, s) == Sweep(SweepBy(es, scope, s).kept, [])
  {
    AllAllowedKept(SweepBy(es, scope, s).kept, scope, s);
  }

  /**
    The two enums are torn down independently: entering an outer state never
    despawns an entity that has no `ForState<AppState>`, whatever its
    `ForState<AppGameState>` says, and the other way round.
   */
  lemma ScopesAreIndependent(es: seq<Entity>, a: AppState, g: AppGameState, e: Entity)
    requires e in es
    ensures e.forApp.None? ==> e in EnterAppState(es, a).kept
    ensures e.forGame.None? ==> e in EnterGameState(es, g).kept
  {
  }

  /** The on-enter hooks that run the teardown: one per variant of each enum. */
  datatype Hook = OnEnterApp(app: AppState) | OnEnterGame(game: AppGameState)

  /** The hooks the states plugin registers: teardown runs on entry to every variant of both enums. */
  function TeardownHooks(): (hooks: seq<Hook>)
    ensures forall a: AppState :: OnEnterApp(a) in hooks
    ensures forall g: AppGameState :: OnEnterGame(g) in hooks
    ensures forall i, j :: 0 <= i < j < |hooks| ==> hooks[i] != hooks[j]
  {
    var hooks := [OnEnterApp(StartMenu), OnEnterApp(AppState.Game),
      OnEnterGame(Invalid), OnEnterGame(AppGameState.Game), OnEnterGame(Pause), OnEnterGame(GameOver)];
    EveryVariantHooked(hooks);
    hooks
  }

  lemma EveryVariantHooked(hooks: seq<Hook>)
    requires hooks == [OnEnterApp(StartMenu), OnEnterApp(AppState.Game),
      OnEnterGame(Invalid), OnEnterGame(AppGameState.Game), OnEnterGame(Pause), OnEnterGame(GameOver)]
    ensures forall a: AppState :: OnEnterApp(a) in hooks
    ensures forall g: AppGameState :: OnEnterGame(g) in hooks
  {
    forall a: AppState ensures OnEnterApp(a) in hooks {
      var i := if a.StartMenu? then 0 else 1;
      assert hooks[i] == OnEnterApp(a);
    }
    forall g: AppGameState ensures OnEnterGame(g) in hooks {
      var i := match g
        case Invalid => 2
        case Game => 3
        case Pause => 4
        case GameOver => 5;
      assert hooks[i] == OnEnterGame(g);
    }
  }

  /** Runs the teardown a hook stands for. */
  function RunHook(es: seq<Entity>, h: Hook): Sweep {
    match h
    case OnEnterApp(a) => EnterAppState(es, a)
    case OnEnterGame(g) => EnterGameState(es, g)
  }

  /**
    An entity scoped to the gameplay phases survives entering
    `Pause` and is despawned on entering the start screen when also scoped
    to the `Game` outer state.
   */
  lemma TeardownExample(id: EntityId)
    ensures var e := Entity(id, Some([AppState.Game]), Some([AppGameState.Game, Pause, GameOver]));
      && e in EnterGameState([e], Pause).kept
      && e in EnterAppState([e], StartMenu).despawned
  {
    var e := Entity(id, Some([AppState.Game]), Some([AppGameState.Game, Pause, GameOver]));
    assert e in [e];
  }

  /**
    The engine's state resource of this revision: the current state and at
    most one queued transition, applied between frames.
   */
  datatype StateCell<T> = StateCell(current: T, queued: Option<T>)

  /** Why a state change request is refused. */
  datatype StateError = AlreadyInState | StateAlreadyQueued

  /**
    A request to change state: refused when the target is the current state
    or when a transition is already queued; otherwise queued. The current
    state never changes during a frame.
   */
  function SetState<T(==)>(cell: StateCell<T>, target: T): (r: Result<StateCell<T>, StateError>)
    ensures r.Success? <==> target != cell.current && cell.queued.None?
    ensures r.Success? ==> r.value == StateCell(cell.current, Some(target))
    ensures r.Failure? && target == cell.current ==> r.error == AlreadyInState
  {
    if target == cell.current then Failure(AlreadyInState)
    else if cell.queued.Some? then Failure(StateAlreadyQueued)
    else Success(cell.(queued := Some(target)))
  }

  /** A second request in the same frame is always refused. */
  lemma SecondSetRefused<T>(cell: StateCell<T>, a: T, b: T)
    requires SetState(cell, a).Success?
    ensures SetState(SetState(cell, a).value, b).Failure?
  {
  }

  /** The run-wide resource of this revision; its asset handles are not modelled. */
  datatype RunState = RunState(arena: Option<Arena.ArenaState>, score: Option<nat>)

  /** A run state before any game: no arena and no score yet. */
  function NewRunState(): (r: RunState)
    ensures r.arena.None? && r.score.None?
  {
    RunState(None, None)
  }
}

=== FILE: timer.dfy ===
/**
  The engine's `Timer`, reduced to what the gameplay rules observe: time elapsed
  and duration, in seconds. A one-shot timer counts up to its duration and stays
  there; it is finished once the duration is reached, and `Reset` starts it over.
  A repeating timer wraps around and reports whether it completed during a tick.
 */
module Timers {

  datatype Timer = Timer(elapsed: real, duration: real) {

    /** A one-shot timer never counts past its duration. */
    predicate Valid() {
      0.0 <= elapsed <= duration
    }

    /** A repeating timer is always strictly inside its (positive) period. */
    predicate ValidRepeating() {
      0.0 <= elapsed < duration
    }

    predicate Finished() {
      elapsed >= duration
    }
  }

  /** A new timer that has not started counting. */
  function FromSeconds(duration: real): (t: Timer)
    requires duration >= 0.0
    ensures t.Valid() && t.duration == duration
    ensures t.Finished() <==> duration == 0.0
  {
    Timer(0.0, duration)
  }

  /** Advances a one-shot timer by `delta` seconds, stopping at its duration. */
  function Tick(t: Timer, delta: real): (r: Timer)
    requires t.Valid() && delta >= 0.0
    ensures r.Valid() && r.duration == t.duration
    ensures t.elapsed <= r.elapsed
    ensures r.Finished() <==> t.elapsed + delta >= t.duration
    ensures !r.Finished() ==> r.elapsed == t.elapsed + delta
  {
    if t.elapsed + delta < t.duration then Timer(t.elapsed + delta, t.duration)
    else Timer(t.duration, t.duration)
  }

  /** Starts the timer over; it is unfinished again unless its duration is zero. */
  function Reset(t: Timer): (r: Timer)
    requires t.duration >= 0.0
    ensures r.Valid() && r.duration == t.duration && r.elapsed == 0.0
    ensures r.Finished() <==> t.duration == 0.0
  {
    t.(elapsed := 0.0)
  }

  /** Two ticks in a row are one tick by their sum: a one-shot timer only adds up elapsed time. */
  lemma TickAdds(t: Timer, a: real, b: real)
    requires t.Valid() && a >= 0.0 && b >= 0.0
    ensures Tick(Tick(t, a), b) == Tick(t, a + b)
  {
  }

  /** Elapsed time after a repeating tick: whatever is left over once whole periods are removed. */
  function Wrapped(total: real, period: real): (e: real)
    requires total >= 0.0 && period > 0.0
    ensures 0.0 <= e < period
    ensures total < period ==> e == total
  {
    var laps := (total / period).Floor;
    FloorBounds(total, period);
    total - laps as real * period
  }

  /** The number of whole periods in `total` brackets it between `laps * period` and `(laps + 1) * period`. */
  lemma FloorBounds(total: real, period: real)
    requires total >= 0.0 && period > 0.0
    ensures var laps := (total / period).Floor;
      laps as real * period <= total < (laps as real + 1.0) * period
      && (total < period ==> laps == 0)
  {
    var q := total / period;
    var laps := q.Floor;
    assert laps as real <= q < laps as real + 1.0;
    DivMul(total, period);
    MulLe(laps as real, q, period);
    MulLt(q, laps as real + 1.0, period);
    MulLe(0.0, total, 1.0 / period);
    if total < period {
      if q >= 1.0 {
        MulLe(1.0, q, period);
        assert false;
      }
    }
  }

  lemma DivMul(a: real, b: real)
    requires b > 0.0
    ensures (a / b) * b == a
  {
  }

  lemma MulLe(a: real, b: real, c: real)
    requires a <= b && c >= 0.0
    ensures a * c <= b * c
  {
  }

  lemma MulLt(a: real, b: real, c: real)
    requires a < b && c > 0.0
    ensures a * c < b * c
  {
  }

  /**
    Advances a repeating timer by `delta`. The flag is the timer's "finished"
    state for this tick: true exactly when the period was completed at least
    once during the tick.
   */
  function TickRepeating(t: Timer, delta: real): (r: (Timer, bool))
    requires t.ValidRepeating() && delta >= 0.0
    ensures r.0.ValidRepeating() && r.0.duration == t.duration
    ensures r.1 <==> t.elapsed + delta >= t.duration
    ensures !r.1 ==> r.0.elapsed == t.elapsed + delta
  {
    var total := t.elapsed + delta;
    (Timer(Wrapped(total, t.duration), t.duration), total >= t.duration)
  }
}

=== FILE: ui.dfy ===
/**
  The in-game UI of the two-level-state revision: its input state machine,
  whose state changes go through the engine's refusing `set` (a refused
  change aborts the game), and the life icons.
 */
module Ui {
  import opened Wrappers
  import opened Components
  import opened States
  import MenuFlow
  import LifeIcons
  import Counting

  /** Both state resources after a call, the physics switch if written, and whether quitting was requested. */
  datatype UiOut = UiOut(app: StateCell<AppState>, game: StateCell<AppGameState>, physics: Option<bool>, exit: bool)

  /** No transition queued yet this frame. */
  predicate Fresh(app: StateCell<AppState>, game: StateCell<AppGameState>) {
    app.queued.None? && game.queued.None?
  }

  function ScreenOf(app: StateCell<AppState>, game: StateCell<AppGameState>): MenuFlow.Screen {
    MenuFlow.Screen(app.current, game.current)
  }

  /** The requests a call made, in the terms of the next-state revision. */
  function Requests(o: UiOut): MenuFlow.FlowOutput {
    MenuFlow.FlowOutput(o.app.queued, o.game.queued, o.physics, o.exit)
  }

  /** Requests a change of outer state and of game phase, in that order; either refusal aborts. */
  function SetBoth(o: UiOut, a: AppState, g: AppGameState): (r: Result<UiOut, StateError>)
    ensures r.Success? <==> SetState(o.app, a).Success? && SetState(o.game, g).Success?
    ensures r.Success? ==> r.value == o.(app := SetState(o.app, a).value, game := SetState(o.game, g).value)
  {
    match SetState(o.app, a)
    case Failure(e) => Failure(e)
    case Success(app) =>
      match SetState(o.game, g)
      case Failure(e) => Failure(e)
      case Success(game) => Success(o.(app := app, game := game))
  }

  /** Requests a change of game phase and writes the physics switch; a refusal aborts. */
  function SetPhase(o: UiOut, g: AppGameState, physics: bool): (r: Result<UiOut, StateError>)
    ensures r.Success? <==> SetState(o.game, g).Success?
    ensures r.Success? ==> r.value == o.(game := SetState(o.game, g).value, physics := Some(physics))
  {
    match SetState(o.game, g)
    case Failure(e) => Failure(e)
    case Success(game) => Success(o.(game := game, physics := Some(physics)))
  }

  /** Exiting to the menu while pausing or resuming, or while accepting on the game-over screen. */
  predicate Conflict(s: MenuFlow.Screen, a: MenuFlow.MenuActions) {
    && s.app == AppState.Game && a.exitToMenu
    && (((s.game == AppGameState.Game || s.game == Pause) && a.pauseUnpause) || (s.game == GameOver && a.accept))
  }

  /**
    The UI input system as written. Each branch is judged on the current
    states and asks for its state changes in turn. From a valid screen
    with nothing queued it aborts exactly on a conflict; otherwise it asks
    for the same changes as the next-state revision of the menu system.
   */
  function UiInputAsWritten(app: StateCell<AppState>, game: StateCell<AppGameState>, a: MenuFlow.MenuActions)
    : (r: Result<UiOut, StateError>)
    ensures r.Success? ==> r.value.app.current == app.current && r.value.game.current == game.current
    ensures Fresh(app, game) && MenuFlow.ValidScreen(ScreenOf(app, game)) ==>
      (r.Success? <==> !Conflict(ScreenOf(app, game), a))
    ensures Fresh(app, game) && MenuFlow.ValidScreen(ScreenOf(app, game)) && r.Success? ==>
      Requests(r.value) == MenuFlow.MenuInputAsWritten(ScreenOf(app, game), a)
  {
    var start := UiOut(app, game, None, false);
    var exited := if app.current != StartMenu && a.exitToMenu
      then (match SetBoth(start, StartMenu, Invalid)
            case Failure(e) => Failure(e)
            case Success(o) => Success(o.(physics := Some(true))))
      else Success(start);
    match exited
    case Failure(e) => Failure(e)
    case Success(o) =>
      match app.current
      case Game =>
        if game.current == AppGameState.Game then
          if a.pauseUnpause then SetPhase(o, Pause, false) else Success(o)
        else if game.current == Pause then
          if a.pauseUnpause then SetPhase(o, AppGameState.Game, true) else Success(o)
        else if game.current == GameOver then
          var accepted := if a.accept then SetBoth(o, StartMenu, Invalid) else Success(o);
          (match accepted
           case Failure(e) => Failure(e)
           case Success(o) => Success(if a.quit then o.(exit := true) else o))
        else Success(o)
      case StartMenu =>
        var accepted := if a.accept then SetBoth(o, AppState.Game, AppGameState.Game) else Success(o);
        match accepted
        case Failure(e) => Failure(e)
        case Success(o) => Success(if a.quit then o.(exit := true) else o)
  }

  /** Exiting to the menu while pausing, as written: the second phase request is refused and the game aborts. */
  lemma ExitWhilePausingAborts()
    ensures UiInputAsWritten(StateCell(AppState.Game, None), StateCell(AppGameState.Game, None),
                             MenuFlow.MenuActions(false, true, true, false)) == Failure(StateAlreadyQueued)
  {
  }

  /**
    The UI input system with exiting to the menu taking precedence. From a
    valid screen with nothing queued it never aborts, and it asks for the
    same changes as the corrected menu system.
   */
  function UiInput(app: StateCell<AppState>, game: StateCell<AppGameState>, a: MenuFlow.MenuActions)
    : (r: Result<UiOut, StateError>)
    ensures r.Success? ==> r.value.app.current == app.current && r.value.game.current == game.current
    ensures Fresh(app, game) && MenuFlow.ValidScreen(ScreenOf(app, game)) ==>
      r.Success? && Requests(r.value) == MenuFlow.MenuInput(ScreenOf(app, game), a)
  {
    if app.current != StartMenu && a.exitToMenu then
      match SetBoth(UiOut(app, game, None, false), StartMenu, Invalid)
      case Failure(e) => Failure(e)
      case Success(o) => Success(o.(physics := Some(true), exit := a.quit && game.current == GameOver))
    else UiInputAsWritten(app, game, a)
  }

  /** The icon thresholds the UI creates, one per starting life, scoped to the `Game` outer state. */
  function GameUiSpawn(startLife: nat): (r: (seq<nat>, seq<AppState>))
    ensures |r.0| == startLife
    ensures forall i :: 0 <= i < startLife ==> r.0[i] == i + 1
    ensures r.1 == [AppState.Game]
  {
    (LifeIcons.IconMins(startLife), [AppState.Game])
  }

  /** The life the UI shows: the player's ship's, or 0 when there is no player or its ship is gone. */
  function PlayerLife(player: Option<EntityId>, ships: map<EntityId, nat>): (life: nat)
    ensures player.Some? && player.value in ships ==> life == ships[player.value]
    ensures player.None? || player.value !in ships ==> life == 0
  {
    match player
    case Some(p) => if p in ships then ships[p] else 0
    case None => 0
  }

  /** The life-icon system: each icon shown exactly when the life shown reaches its threshold. */
  function LifeUiSystem(player: Option<EntityId>, ships: map<EntityId, nat>, mins: seq<nat>): (v: seq<bool>)
    ensures |v| == |mins|
    ensures forall i :: 0 <= i < |mins| ==> (v[i] <==> PlayerLife(player, ships) >= mins[i])
  {
    LifeIcons.Visibility(PlayerLife(player, ships), mins)
  }

  /** Without a live player ship, none of the created icons is shown. */
  lemma NoPlayerNoIcons(player: Option<EntityId>, ships: map<EntityId, nat>, startLife: nat)
    requires player.None? || player.value !in ships
    ensures forall i :: 0 <= i < startLife ==> !LifeUiSystem(player, ships, GameUiSpawn(startLife).0)[i]
  {
  }

  /** The UI shows as many icons as the ship has lives, up to the number created. */
  lemma IconsShowLife(player: Option<EntityId>, ships: map<EntityId, nat>, startLife: nat)
    ensures Counting.CountTrue(LifeUiSystem(player, ships, GameUiSpawn(startLife).0))
            == LifeIcons.Min(PlayerLife(player, ships), startLife)
  {
    LifeIcons.VisibleCount(PlayerLife(player, ships), startLife);
  }
}

=== FILE: wrappers.dfy ===
/** Optional values and the outcome of an operation that the game would abort on. */
module Wrappers {

  datatype Option<+T> = None | Some(value: T) {

    /** The contained value, or `default` when there is none. */
    function GetOr(default: T): T {
      match this
      case Some(v) => v
      case None => default
    }
  }

  /** `Failure` stands for a panic of the game (an `unwrap`, an `expect`, an explicit `panic!`). */
  datatype Result<+R, +E> = Success(value: R) | Failure(error: E)
}
